=== FILE: README.md ===
# YouTube transcript pipeline: chunking core

This project is a Dafny model of the text-handling core of a YouTube transcript pipeline. It covers three parts.

- **Text chunker.** It normalises whitespace and cuts the text into word-aware, overlapping chunks that cover the whole text. Chunks shorter than a minimum length are glued onto the chunk before them, and every chunk becomes a numbered record that carries the caller's metadata.
- **YouTube helper.** It builds watch URLs and extracts a video id from the supported URL shapes. It joins transcript entries into one string and picks video metadata from three sources: pytube, then oEmbed, then a minimal fallback. It resolves a transcript through the transcript service's tiers: a direct fetch, then preferred languages (for each, the transcript `find_transcript` finds, then the one `find_generated_transcript` finds), then any listed transcript.
- **Transcript processing step.** It builds one chunker from the settings and chunks every video that has a transcript. The records of all videos are concatenated in video order.

Modules, one per file:

- `Wrappers`: `Option` and `Result`.
- `Strings`: the Python `str` operations the code relies on: whitespace, `strip`, `join`, `split`, `lstrip(chars)` and `lower`.
- `TextChunker`, `YouTubeHelper` and `TranscriptProcessor`.

The chunking loop, the numbering loop, the transcript join loop, the transcript lookup loops and the processing loop are methods with loop invariants. Each is proved equal to a declarative function: `Windows`, `Pieces` and `Coalesce` for the chunker, `JoinedText`, `Preferred` and `Resolve` for the helper, `AllChunks` for the step. The properties are proved about those functions.

## Model

| member | source | states |
|---|---|---|
| Strings.StripFacts | youtube-transcript-pipeline/utils/text_chunker.py:30 | `strip()` leaves no whitespace at either end, returns the empty string exactly when the input is all whitespace, and leaves already-trimmed text unchanged |
| Strings.Strip | youtube-transcript-pipeline/utils/text_chunker.py:30 | `strip()` is the slice between the leading and the trailing whitespace; its properties are `StripFacts` and `StripPadded` |
| Strings.StripPadded | youtube-transcript-pipeline/utils/text_chunker.py:30 | stripping whitespace padding from around a non-empty trimmed string gives exactly that string |
| Strings.Words | youtube-transcript-pipeline/utils/text_chunker.py:30 | `split()` without arguments: the maximal runs of non-whitespace characters, in order; a string starting with a non-whitespace character has at least one |
| Strings.WordsFacts | youtube-transcript-pipeline/utils/text_chunker.py:30 | every word is non-empty, holds no whitespace and so is trimmed; there are no words exactly when the string is all whitespace |
| Strings.Join | youtube-transcript-pipeline/utils/youtube_helper.py:75 | `sep.join(parts)`: empty for no parts, the part itself for one; the snoc, cons and extension lemmas relate the joined string to its parts |
| Strings.Split | youtube-transcript-pipeline/utils/youtube_helper.py:48 | `split(sep)` gives at least one piece and no piece holds the separator; `SplitJoin` proves joining gives the string back |
| Strings.LStripChars | youtube-transcript-pipeline/utils/youtube_helper.py:36 | `lstrip(chars)` never lengthens; `LStripCharsFacts` characterises it |
| Strings.SplitJoin | youtube-transcript-pipeline/utils/youtube_helper.py:48 | joining the pieces of `split("/")` with "/" gives the path back |
| Strings.SplitSepThen | youtube-transcript-pipeline/utils/youtube_helper.py:48 | a separator followed by a separator-free tail adds that tail as the last piece |
| Strings.SplitOnlySeparators | youtube-transcript-pipeline/utils/youtube_helper.py:48 | a path made only of "/" splits into empty pieces only |
| Strings.JoinFragments | youtube-transcript-pipeline/utils/youtube_helper.py:75 | joining non-empty trimmed parts with single spaces gives a trimmed string that is empty iff there are no parts, and starts and ends with the first and last parts' characters |
| Strings.LStripCharsFacts | youtube-transcript-pipeline/utils/youtube_helper.py:36 | `lstrip(chars)` removes a prefix made only of characters in the set and stops at the first character outside it |
| Strings.LStripPrefix | youtube-transcript-pipeline/utils/youtube_helper.py:36 | a prefix of set characters in front of a rest that does not start with one is removed completely |
| Strings.LowerChar | youtube-transcript-pipeline/utils/youtube_helper.py:36 | an ASCII capital becomes its own small letter (32 code points on); every other character is kept |
| Strings.Lower | youtube-transcript-pipeline/utils/youtube_helper.py:36 | `lower()` keeps the length and lower-cases character by character |
| Strings.LowerFacts | youtube-transcript-pipeline/utils/youtube_helper.py:36 | lower-cased text holds no ASCII capital, and lower-casing it again changes nothing |
| TextChunker.New | youtube-transcript-pipeline/utils/text_chunker.py:10-21 | construction fails iff `chunk_size <= 0`; the overlap is clamped into `[0, chunk_size - 1]` and the minimum length to at least 0 |
| TextChunker.IsBoundary | youtube-transcript-pipeline/utils/text_chunker.py:8-25 | a chunk may end exactly after one of the characters of `BOUNDARY_CHARS`; `ExtendedEnd` and `WindowEnd` state where ends fall |
| TextChunker.Collapse | youtube-transcript-pipeline/utils/text_chunker.py:30 | replacing whitespace runs by one space leaves no two adjacent whitespace characters and no whitespace other than " ", is empty iff the input is, and keeps whether the text starts with whitespace and whether it is all whitespace |
| TextChunker.Normalize | youtube-transcript-pipeline/utils/text_chunker.py:27-30 | the normalised text is single-spaced and trimmed, and is empty exactly when the input is all whitespace |
| TextChunker.CollapseKeepsNormalized | youtube-transcript-pipeline/utils/text_chunker.py:30 | collapsing already single-spaced text changes nothing |
| TextChunker.NormalizeIdempotent | youtube-transcript-pipeline/utils/text_chunker.py:27-30 | normalising is idempotent and leaves normalised text unchanged |
| TextChunker.CollapseAllSpace | youtube-transcript-pipeline/utils/text_chunker.py:30 | a non-empty whitespace-only string collapses to one space |
| TextChunker.CollapseWords | youtube-transcript-pipeline/utils/text_chunker.py:30 | collapsing keeps every word of the input in order, with one space between words and one for leading and for trailing whitespace |
| TextChunker.NormalizeWords | youtube-transcript-pipeline/utils/text_chunker.py:27-30 | the normalised text is the input's words joined by single spaces: nothing but whitespace is dropped, added or moved |
| TextChunker.ExtendedEnd | youtube-transcript-pipeline/utils/text_chunker.py:32-40 | the extended end is not before the requested end, at most the text length, and either the text length or just past a boundary character |
| TextChunker.ExtendedEndFirstBoundary | youtube-transcript-pipeline/utils/text_chunker.py:36-39 | no boundary character is passed over before the one the end stops after |
| TextChunker.ExtendEnd | youtube-transcript-pipeline/utils/text_chunker.py:32-40 | the scanning loop returns the extended end |
| TextChunker.BackToBoundary | youtube-transcript-pipeline/utils/text_chunker.py:44-46 | rewinding goes back to position 0 or to just after a boundary character |
| TextChunker.BackToBoundaryNearest | youtube-transcript-pipeline/utils/text_chunker.py:44-46 | rewinding stops at the nearest boundary: no boundary character lies between the result and the start |
| TextChunker.SkipSpaces | youtube-transcript-pipeline/utils/text_chunker.py:47-48 | skipping forward stops on a non-whitespace character or at the end, having passed only whitespace |
| TextChunker.SkipSpacesOnlySpaces | youtube-transcript-pipeline/utils/text_chunker.py:47-48 | every character skipped is whitespace |
| TextChunker.SkipSpacesAtMostOne | youtube-transcript-pipeline/utils/text_chunker.py:47-48 | in normalised text at most one character is skipped |
| TextChunker.RewoundStart | youtube-transcript-pipeline/utils/text_chunker.py:42-49 | the rewound start is not on whitespace and follows the text start, a boundary or whitespace |
| TextChunker.RewoundStartNormalized | youtube-transcript-pipeline/utils/text_chunker.py:42-49 | in normalised text the rewound start follows a boundary, and lies at most one past the requested start, and only when that character is a space |
| TextChunker.RewindStart | youtube-transcript-pipeline/utils/text_chunker.py:42-49 | the two loops compute the rewound start |
| TextChunker.NextStart | youtube-transcript-pipeline/utils/text_chunker.py:77-80 | the next start is strictly after the current start, so the loop makes progress; it lands on a space only at the previous end and only with a positive overlap |
| TextChunker.AdvanceCursor | youtube-transcript-pipeline/utils/text_chunker.py:77-81 | the cursor update computes the next start |
| TextChunker.NextStartGap | youtube-transcript-pipeline/utils/text_chunker.py:77-80 | in normalised text the next start is at most one past the previous end, and then only over a space |
| TextChunker.WindowEnd | youtube-transcript-pipeline/utils/text_chunker.py:62-63 | each window is non-empty and in bounds, and a window that stops before the end of the text ends just after a boundary character |
| TextChunker.BlankSliceStrip | youtube-transcript-pipeline/utils/text_chunker.py:65-66 | the blank test used by the windows is exactly "the stripped slice is empty" |
| TextChunker.Windows | youtube-transcript-pipeline/utils/text_chunker.py:61-81 | the first window starts at the cursor |
| TextChunker.WindowsInside | youtube-transcript-pipeline/utils/text_chunker.py:61-81 | every window is a non-empty slice of the text at or after the starting cursor |
| TextChunker.WindowsNotBlank | youtube-transcript-pipeline/utils/text_chunker.py:65-67 | every window's stripped slice is non-empty |
| TextChunker.WindowsChained | youtube-transcript-pipeline/utils/text_chunker.py:74-81 | each next window starts strictly later, and no later than one space past the previous end |
| TextChunker.ReachableSliceNotBlank | youtube-transcript-pipeline/utils/text_chunker.py:65-67 | on normalised text every reachable window holds a non-space character, so the early `break` never fires |
| TextChunker.WindowsReachEnd | youtube-transcript-pipeline/utils/text_chunker.py:74-75 | from a reachable start the windows end exactly at the end of the text |
| TextChunker.NextStartReachable | youtube-transcript-pipeline/utils/text_chunker.py:77-81 | every next start is again a reachable start |
| TextChunker.WindowsCoverText | youtube-transcript-pipeline/utils/text_chunker.py:51-81 | on non-empty normalised text the windows start at 0, end at the text end, are chained, and every non-space character lies in some window |
| TextChunker.Pieces | youtube-transcript-pipeline/utils/text_chunker.py:65 | the stripped slice `normalized[start:end].strip()` of each visited window, in visit order; `PiecesFragments` states that each is a non-empty trimmed string |
| TextChunker.WindowPieces | youtube-transcript-pipeline/utils/text_chunker.py:61-66 | the stripped slices of all the windows `chunk_text` visits; `CollectChunks` is proved to merge exactly these, and `WindowsCoverText` and `CoalesceJoin` state that they cover the text |
| TextChunker.PiecesFragments | youtube-transcript-pipeline/utils/text_chunker.py:65 | the stripped window slices are non-empty trimmed strings |
| TextChunker.Coalesce | youtube-transcript-pipeline/utils/text_chunker.py:69-72 | the merging rule applied to the pieces in order; its properties are `CoalesceFragments`, `CoalesceJoin`, `CoalesceCount` and `CoalesceNothingShort` |
| TextChunker.MergeInto | youtube-transcript-pipeline/utils/text_chunker.py:69-72 | one piece: glued to the last chunk after a space when shorter than the minimum and a chunk exists, else appended; `MergeIntoFragments` states what it keeps |
| TextChunker.SpaceJoinStripped | youtube-transcript-pipeline/utils/text_chunker.py:70 | the `strip()` around a merged chunk changes nothing |
| TextChunker.MergeIntoFragments | youtube-transcript-pipeline/utils/text_chunker.py:69-72 | one merge step keeps the chunks non-empty and trimmed and keeps the first chunk's beginning |
| TextChunker.CoalesceFragments | youtube-transcript-pipeline/utils/text_chunker.py:69-72 | merging keeps every chunk non-empty and trimmed, gives no chunks iff there were no pieces, and the first chunk starts with the first piece |
| TextChunker.CoalesceJoin | youtube-transcript-pipeline/utils/text_chunker.py:69-72 | merging loses and reorders nothing: the space-joined chunks equal the space-joined pieces |
| TextChunker.CoalesceCount | youtube-transcript-pipeline/utils/text_chunker.py:69-72 | the number of chunks plus the number of short pieces after the first equals the number of pieces |
| TextChunker.CoalesceNothingShort | youtube-transcript-pipeline/utils/text_chunker.py:69 | when no piece after the first is short, the pieces are the chunks |
| TextChunker.CoalesceSingle | youtube-transcript-pipeline/utils/text_chunker.py:69-72 | a single piece is a single chunk |
| TextChunker.CollectChunks | youtube-transcript-pipeline/utils/text_chunker.py:58-81 | the cursor loop produces the merged pieces of the windows |
| TextChunker.NumberChunks | youtube-transcript-pipeline/utils/text_chunker.py:83-93 | the numbering loop produces the numbered records |
| TextChunker.ChunkRecord | youtube-transcript-pipeline/utils/text_chunker.py:86-92 | the chunk's text, id and total, then the metadata applied on top; `RecordsNumbered` states the fields |
| TextChunker.Records | youtube-transcript-pipeline/utils/text_chunker.py:83-93 | one record per chunk, numbered in order with the total count; `RecordsNumbered` states it |
| TextChunker.ChunkTexts | youtube-transcript-pipeline/utils/text_chunker.py:52-81 | the chunk strings: the window pieces of the normalised text, merged; `ChunkTextsFacts` states they are trimmed fragments whose space-join is the space-join of the window pieces (not the normalised text itself: a cut after a boundary character adds a space, and a positive overlap repeats text) |
| TextChunker.ChunkRecords | youtube-transcript-pipeline/utils/text_chunker.py:51-95 | the list `chunk_text` returns: the records of `ChunkTexts`; `RecordsNumbered` states the fields of each record and `ShortTextOneChunk` and `BlankTextNoChunks` the edge cases |
| TextChunker.ChunkText | youtube-transcript-pipeline/utils/text_chunker.py:51-95 | `chunk_text` returns the records of the merged window pieces of the normalised text |
| TextChunker.ChunkTextsFacts | youtube-transcript-pipeline/utils/text_chunker.py:51-81 | the chunks are non-empty and trimmed, there are none iff the text is all whitespace, and together they spell out the window pieces |
| TextChunker.NoMinimumNoMerge | youtube-transcript-pipeline/utils/text_chunker.py:69-72 | with minimum length 0 the chunks are exactly the window pieces |
| TextChunker.BlankTextNoChunks | youtube-transcript-pipeline/utils/text_chunker.py:52-56 | all-whitespace text yields no records |
| TextChunker.ShortTextOneWindow | youtube-transcript-pipeline/utils/text_chunker.py:61-75 | non-blank text no longer than the chunk size is one window |
| TextChunker.ShortTextOnePiece | youtube-transcript-pipeline/utils/text_chunker.py:61-75 | trimmed text no longer than the chunk size is one piece, itself |
| TextChunker.ShortTextOneChunk | youtube-transcript-pipeline/utils/text_chunker.py:51-95 | non-blank text whose normalised form fits one chunk gives exactly one record: the normalised text, id 0 of 1, with the metadata |
| TextChunker.RecordsNumbered | youtube-transcript-pipeline/utils/text_chunker.py:83-93 | one record per chunk, with the chunk keys plus the metadata keys; metadata values win, and otherwise each record holds its chunk's text, its id and the total |
| YouTubeHelper.NewHelper | youtube-transcript-pipeline/utils/youtube_helper.py:23-24 | a missing or empty language list becomes ["tr", "en"]; any other list is kept |
| YouTubeHelper.BuildVideoUrl | youtube-transcript-pipeline/utils/youtube_helper.py:27-30 | the URL is the canonical watch prefix followed by the id |
| YouTubeHelper.BuildVideoUrlInjective | youtube-transcript-pipeline/utils/youtube_helper.py:27-30 | different ids give different URLs |
| YouTubeHelper.NormalizedHost | youtube-transcript-pipeline/utils/youtube_helper.py:36 | the normalised host does not start with 'w' or '.' |
| YouTubeHelper.HostAfterPrefix | youtube-transcript-pipeline/utils/youtube_helper.py:36 | a lower-case host loses its whole leading run of 'w' and '.' characters, "www." included |
| YouTubeHelper.HostCaseIgnored | youtube-transcript-pipeline/utils/youtube_helper.py:36 | host matching ignores case |
| YouTubeHelper.NonEmpty | youtube-transcript-pipeline/utils/youtube_helper.py:48 | the kept segments are exactly the non-empty ones; one part is kept iff it is non-empty |
| YouTubeHelper.Segments | youtube-transcript-pipeline/utils/youtube_helper.py:48 | the parts of `path.split("/")` that are non-empty, in order; `SegmentsFacts`, `NonEmptyAppend` and `SegmentsTrailingSlashes` state its properties |
| YouTubeHelper.SegmentsFacts | youtube-transcript-pipeline/utils/youtube_helper.py:48 | every path segment is non-empty and holds no '/' |
| YouTubeHelper.NonEmptyAppend | youtube-transcript-pipeline/utils/youtube_helper.py:48 | filtering keeps order: the kept parts of `a + b` are those of `a` followed by those of `b` |
| YouTubeHelper.SegmentsTrailingSlashes | youtube-transcript-pipeline/utils/youtube_helper.py:48 | slashes at the end of a path add no segment |
| YouTubeHelper.LastSegment | youtube-transcript-pipeline/utils/youtube_helper.py:48-50 | a path ending in a segment followed only by slashes has that segment as its last non-empty piece |
| YouTubeHelper.ExtractVideoId | youtube-transcript-pipeline/utils/youtube_helper.py:32-55 | an id is found only for the three supported hosts, and never an empty one for short links |
| YouTubeHelper.WatchUrl | youtube-transcript-pipeline/utils/youtube_helper.py:28-30 | the host, path and query of the URL `build_video_url` returns, for an id over YouTube's id alphabet; `WatchUrlRoundTrip` states that the id comes back out of it |
| YouTubeHelper.WatchUrlRoundTrip | youtube-transcript-pipeline/utils/youtube_helper.py:27-55 | the id is extracted back from the canonical watch URL of any id over YouTube's id alphabet (letters, digits, '-', '_') |
| YouTubeHelper.ShortLinkId | youtube-transcript-pipeline/utils/youtube_helper.py:38-40 | a youtu.be link yields the path without its leading slashes, and nothing iff the path is only slashes |
| YouTubeHelper.QueryValueWins | youtube-transcript-pipeline/utils/youtube_helper.py:42-45 | on youtube.com a non-empty `v` parameter gives its first value, whatever the path |
| YouTubeHelper.LastSegmentId | youtube-transcript-pipeline/utils/youtube_helper.py:47-53 | without `v`, the last non-empty path segment is the id, with one leading "watchv=" removed, also when slashes follow it |
| YouTubeHelper.NoSegmentNoId | youtube-transcript-pipeline/utils/youtube_helper.py:48-55 | without `v` and without a path segment there is no id |
| YouTubeHelper.OtherHostNoId | youtube-transcript-pipeline/utils/youtube_helper.py:55 | any other host gives no id |
| YouTubeHelper.EntryText | youtube-transcript-pipeline/utils/youtube_helper.py:62-66 | the `text` attribute of an entry, else the `text` key of a dict entry, else nothing; `CleanedFragments` states what the join keeps of it |
| YouTubeHelper.Fragment | youtube-transcript-pipeline/utils/youtube_helper.py:61-73 | an entry's text, read from its `text` attribute or its dict key, stripped; nothing when it is missing or blank; `CleanedFragments` states it |
| YouTubeHelper.Cleaned | youtube-transcript-pipeline/utils/youtube_helper.py:60-73 | the stripped non-blank entry texts in entry order; `CleanedFragments` states it |
| YouTubeHelper.JoinedText | youtube-transcript-pipeline/utils/youtube_helper.py:57-75 | the cleaned texts joined by single spaces; `JoinedTextFacts` states it |
| YouTubeHelper.CleanedFragments | youtube-transcript-pipeline/utils/youtube_helper.py:60-73 | the kept parts are non-empty and trimmed, and there are none iff no entry has non-blank text |
| YouTubeHelper.JoinedTextFacts | youtube-transcript-pipeline/utils/youtube_helper.py:57-75 | the joined transcript is trimmed, and empty iff no entry has non-blank text |
| YouTubeHelper.JoinTranscript | youtube-transcript-pipeline/utils/youtube_helper.py:57-75 | the loop produces the joined text |
| YouTubeHelper.FallbackMetadata | youtube-transcript-pipeline/utils/youtube_helper.py:77-87 | the minimal record: the id as title, empty description, no date, channel or author, the canonical URL; `GetVideoMetadata` returns it when both other sources fail |
| YouTubeHelper.OEmbedMetadata | youtube-transcript-pipeline/utils/youtube_helper.py:106-114 | the oEmbed record: the payload title or else the id, the author name, no date or channel; stated by `GetVideoMetadata` |
| YouTubeHelper.PytubeMetadata | youtube-transcript-pipeline/utils/youtube_helper.py:125-140 | pytube's title, description ("" when missing), date, channel id and author; stated by `GetVideoMetadata` |
| YouTubeHelper.EmptyPayloadIsFallback | youtube-transcript-pipeline/utils/youtube_helper.py:77-114 | an oEmbed payload without title and author gives the same record as the minimal fallback |
| YouTubeHelper.GetVideoMetadata | youtube-transcript-pipeline/utils/youtube_helper.py:116-163 | no metadata iff no non-empty id is extracted; otherwise it has the id and canonical URL; when pytube succeeds its title, author, channel id, date and description ("" when missing); when only oEmbed succeeds the payload title (else the id) and author, no date, no channel id and an empty description; the fallback when both fail |
| YouTubeHelper.MetadataTitle | youtube-transcript-pipeline/utils/youtube_helper.py:116-163 | the title is pytube's when pytube answers, else the oEmbed payload's title when it has one, else the id |
| YouTubeHelper.GetTranscript | youtube-transcript-pipeline/utils/youtube_helper.py:165-214 | the method's tiers and loops give the resolved transcript result |
| YouTubeHelper.TryFetch | youtube-transcript-pipeline/utils/youtube_helper.py:192-199 | one found transcript's fetch: its joined text, the escaping error, or nothing for "not found" so that the search goes on; stated by `PreferredRaised` and `PreferredText` |
| YouTubeHelper.LanguageAttempt | youtube-transcript-pipeline/utils/youtube_helper.py:191-199 | one language: the transcript `find_transcript` finds if it answers, else the one `find_generated_transcript` finds, else nothing; `FoundBeforeGenerated` and `MissingLanguageSkipped` state it |
| YouTubeHelper.Preferred | youtube-transcript-pipeline/utils/youtube_helper.py:190-199 | the first language whose attempt answers; `PreferredFirstHit`, `PreferredNeverNone`, `PreferredRaised` and `PreferredText` state it |
| YouTubeHelper.FirstFetchable | youtube-transcript-pipeline/utils/youtube_helper.py:201-211 | the first listed transcript whose fetch succeeds; `FirstFetchableFirst` states it |
| YouTubeHelper.Resolve | youtube-transcript-pipeline/utils/youtube_helper.py:165-214 | the three tiers in order; `ResolveDirect`, `ResolveNone`, `ResolveRaised` and `ResolveTextStripped` state it |
| YouTubeHelper.ResolveDirect | youtube-transcript-pipeline/utils/youtube_helper.py:167-171 | a direct fetch that succeeds returns its joined text, whatever the listing and the languages |
| YouTubeHelper.PreferredFirstHit | youtube-transcript-pipeline/utils/youtube_helper.py:190-199 | the language tier answers iff some language answers, and then with the first language that does |
| YouTubeHelper.FoundBeforeGenerated | youtube-transcript-pipeline/utils/youtube_helper.py:191-193 | the transcript `find_transcript` finds for a language, when it fetches, is used before the one `find_generated_transcript` finds |
| YouTubeHelper.MissingLanguageSkipped | youtube-transcript-pipeline/utils/youtube_helper.py:194-199 | a language with no transcript of either kind is skipped |
| YouTubeHelper.FirstFetchableFirst | youtube-transcript-pipeline/utils/youtube_helper.py:201-211 | the last tier gives nothing iff every fetch fails, and otherwise the first transcript whose fetch succeeds |
| YouTubeHelper.ResolveNone | youtube-transcript-pipeline/utils/youtube_helper.py:165-214 | the result is "no transcript" exactly when the direct fetch fails with another error; or it fails with "not found" and listing fails; or no tier yields a transcript |
| YouTubeHelper.PreferredNeverNone | youtube-transcript-pipeline/utils/youtube_helper.py:190-199 | the language tier never answers with "no transcript" |
| YouTubeHelper.ResolveRaised | youtube-transcript-pipeline/utils/youtube_helper.py:190-197 | an error escapes only from a preferred language's fetch, and never as "not found" |
| YouTubeHelper.PreferredRaised | youtube-transcript-pipeline/utils/youtube_helper.py:190-197 | an error raised in the language tier is the fetch error of one preferred language's transcript, and is not "not found" |
| YouTubeHelper.ResolveTextStripped | youtube-transcript-pipeline/utils/youtube_helper.py:165-214 | a returned transcript is trimmed |
| YouTubeHelper.PreferredText | youtube-transcript-pipeline/utils/youtube_helper.py:190-197 | a transcript from the language tier is trimmed |
| TranscriptProcessor.BuildChunker | youtube-transcript-pipeline/steps/transcript_processor.py:28-32 | the step fails iff the chunk size is not positive; otherwise the chunker has the configured size, the configured overlap clamped into `[0, chunk_size - 1]`, and the configured minimum length (0 when absent) clamped to at least 0 |
| TranscriptProcessor.VideoRecord | youtube-transcript-pipeline/steps/transcript_processor.py:43-50 | the six metadata fields of a video, with the canonical watch URL; `VideoChunksCarryMetadata` states that every chunk carries them |
| TranscriptProcessor.HasTranscript | youtube-transcript-pipeline/steps/transcript_processor.py:37-38 | a video is chunked iff its transcript is present and non-empty; `NoTranscriptNoChunks` states the skip |
| TranscriptProcessor.VideoChunks | youtube-transcript-pipeline/steps/transcript_processor.py:36-53 | the records `chunk_text` returns for one video's transcript with its metadata, none for a video without one; `VideoChunksCarryMetadata` states their fields |
| TranscriptProcessor.AllChunks | youtube-transcript-pipeline/steps/transcript_processor.py:34-55 | the records of every video, in video order; `AllChunksAppend`, `AllChunksLength` and `VideoBlock` state it |
| TranscriptProcessor.Processed | youtube-transcript-pipeline/steps/transcript_processor.py:10-59 | what `process_transcripts` returns: an error exactly when the chunk size is not positive, otherwise the records of every video in order; `AllChunksLength` and `VideoBlock` state their count and order |
| TranscriptProcessor.ProcessTranscripts | youtube-transcript-pipeline/steps/transcript_processor.py:28-59 | the loop returns the concatenated records of every video with a transcript |
| TranscriptProcessor.AllChunksPrefix | youtube-transcript-pipeline/steps/transcript_processor.py:36-55 | one more video appends its records after those of the videos before it |
| TranscriptProcessor.AllChunksAppend | youtube-transcript-pipeline/steps/transcript_processor.py:34-55 | the output for two lists of videos is the output for the first followed by the output for the second |
| TranscriptProcessor.AllChunksSnoc | youtube-transcript-pipeline/steps/transcript_processor.py:55 | the output for a video added at the end is the previous output followed by that video's records |
| TranscriptProcessor.NoTranscriptNoChunks | youtube-transcript-pipeline/steps/transcript_processor.py:36-38 | a video without a transcript adds no records |
| TranscriptProcessor.AllChunksLength | youtube-transcript-pipeline/steps/transcript_processor.py:53-59 | the number of records is the sum of the chunk counts of the videos with a transcript |
| TranscriptProcessor.VideoChunksCarryMetadata | youtube-transcript-pipeline/steps/transcript_processor.py:43-53 | each video's records are numbered from 0 with that video's total, hold its chunk texts in order, and carry every field of its metadata |
| TranscriptProcessor.VideoBlock | youtube-transcript-pipeline/steps/transcript_processor.py:34-55 | each video's records form one contiguous block after the records of the videos before it, so numbering restarts for every video |

## Left out

- Whitespace is the six ASCII characters ' ', '\t', '\n', '\r', '\v', '\f'. Python's `\s` and `isspace()` also match other Unicode whitespace, such as U+001C–U+001F, U+0085 and U+00A0. Lower-casing covers ASCII letters only.
- `urlparse` and `parse_qs` are not modelled. A URL is given already split into its host name, path and decoded query map. `WatchUrl` is the split of the canonical watch URL only for ids over YouTube's id alphabet (letters, digits, '-', '_'), so `WatchUrlRoundTrip` is stated for those ids. An id with '&', '#', '+', '%' or whitespace would be cut or decoded by `parse_qs`.
- Network calls are not modelled: the transcript service, pytube, the oEmbed request and JSON decoding. Their outcomes are parameters. The direct fetch is a `Fetch`. The transcript list is a `Listing` with two maps from language to transcript, one for what `find_transcript` finds and one for what `find_generated_transcript` finds, plus the list order. The two maps are independent: the service's own rule that `find_transcript` prefers a manual transcript and falls back to a generated one is not modelled. The pytube and oEmbed results are outcome values.
- The structure inside pytube errors, HTTP errors and the transcript-service exception classes is not modelled. These are reduced to the four error kinds the code tells apart.
- Logging is left out.
- `YouTubeHelper.JoinTranscript` models entries whose text is a string or missing. The `str(text)` conversion of other values is not modelled.
- `YouTubeHelper.GetVideoMetadata` takes the pytube publish date already formatted. `isoformat` is not modelled.
- `YouTubeHelper.OEmbedMetadata`: the payload title is a string or missing. A JSON `null` title, which `payload.get("title", video_id)` would return as `None`, is not modelled, and neither are non-string JSON values.
- In `get_transcript`, the second `except` clause that names `NoTranscriptFound` can never catch it, because the clause before it already does. The model has that behaviour.
- The processing step reads its settings from a YAML file. The model takes the settings as a parameter.
- `TranscriptProcessor.ProcessTranscripts`: a video is a typed record. A missing key, which would raise `KeyError`, cannot occur. A falsy transcript is modelled as absent or empty.
- `TextChunker.ChunkText`: `metadata` is a map. A `None` metadata and an empty map are the same value, because neither adds keys.
- `TextChunker.Windows`: its own contract only fixes the first window's start. Coverage, chaining and non-blankness are stated in the lemmas about it.

=== FILE: Strings.dfy ===
/**
 * The few operations on Python `str` values that the pipeline relies on:
 * `isspace`, `strip`, `" ".join`, `lstrip(chars)` and ASCII `lower`.
 * Strings are sequences of characters.
 */
module Strings {

  /** Sequence concatenation is associative. */
  lemma {:induction false} ConcatAssoc<T>(a: seq<T>, b: seq<T>, c: seq<T>)
    ensures a + (b + c) == (a + b) + c
  {
  }

  /** Whitespace as Python's `\s` and `str.isspace()` see it, restricted to ASCII. */
  predicate IsSpace(c: char)
  {
    c == ' ' || c == '\t' || c == '\n' || c == '\r' || c == '\U{000B}' || c == '\U{000C}'
  }

  predicate AllSpace(s: string)
  {
    forall i :: 0 <= i < |s| ==> IsSpace(s[i])
  }

  lemma {:induction false} AllSpaceCons(s: string)
    requires s != []
    ensures AllSpace(s) <==> IsSpace(s[0]) && AllSpace(s[1..])
  {
    if IsSpace(s[0]) && AllSpace(s[1..]) {
      forall i | 0 <= i < |s| ensures IsSpace(s[i]) {
        if i > 0 { assert s[i] == s[1..][i - 1]; }
      }
    }
  }

  /** Neither end of `s` is whitespace: what `strip()` leaves behind. */
  predicate Stripped(s: string)
  {
    s == [] || (!IsSpace(s[0]) && !IsSpace(s[|s| - 1]))
  }

  /** The first position at or after `i` that does not hold whitespace (`|s|` if none). */
  function SkipLeading(s: string, i: nat): (r: nat)
    requires i <= |s|
    ensures i <= r <= |s|
    decreases |s| - i
  {
    if i < |s| && IsSpace(s[i]) then SkipLeading(s, i + 1) else i
  }

  /** The end of `s[lo..hi]` once its trailing whitespace is dropped. */
  function SkipTrailing(s: string, lo: nat, hi: nat): (r: nat)
    requires lo <= hi <= |s|
    ensures lo <= r <= hi
    decreases hi
  {
    if lo < hi && IsSpace(s[hi - 1]) then SkipTrailing(s, lo, hi - 1) else hi
  }

  /** `SkipLeading` passes over whitespace only and stops at a non-whitespace character or the end. */
  lemma {:induction false} SkipLeadingFacts(s: string, i: nat)
    requires i <= |s|
    ensures var r := SkipLeading(s, i);
      (forall k :: i <= k < r ==> IsSpace(s[k])) && (r == |s| || !IsSpace(s[r]))
    decreases |s| - i
  {
    if i < |s| && IsSpace(s[i]) {
      SkipLeadingFacts(s, i + 1);
    }
  }

  /** `SkipTrailing` passes back over whitespace only and stops after a non-whitespace character or at `lo`. */
  lemma {:induction false} SkipTrailingFacts(s: string, lo: nat, hi: nat)
    requires lo <= hi <= |s|
    ensures var r := SkipTrailing(s, lo, hi);
      (forall k :: r <= k < hi ==> IsSpace(s[k])) && (r == lo || !IsSpace(s[r - 1]))
    decreases hi
  {
    if lo < hi && IsSpace(s[hi - 1]) {
      SkipTrailingFacts(s, lo, hi - 1);
    }
  }

  /** `s.strip()`: the part of `s` between its leading and its trailing whitespace. */
  function Strip(s: string): string
  {
    var a := SkipLeading(s, 0);
    s[a..SkipTrailing(s, a, |s|)]
  }

  /**
   * `strip()` leaves no whitespace at either end, returns the empty string
   * exactly for all-whitespace input and leaves stripped input unchanged.
   */
  lemma {:induction false} StripFacts(s: string)
    ensures Stripped(Strip(s))
    ensures Strip(s) == [] <==> AllSpace(s)
    ensures Stripped(s) ==> Strip(s) == s
  {
    var a := SkipLeading(s, 0);
    var b := SkipTrailing(s, a, |s|);
    SkipLeadingFacts(s, 0);
    SkipTrailingFacts(s, a, |s|);
    var r := s[a..b];
    if a < b {
      assert r[0] == s[a] && r[|r| - 1] == s[b - 1];
    }
    if Stripped(s) && s != [] {
      assert !IsSpace(s[0]) && !IsSpace(s[|s| - 1]);
      assert a == 0 && b == |s|;
      assert r == s;
    }
  }

  /** `sep.join(parts)`. */
  function Join(parts: seq<string>, sep: string): (r: string)
    ensures parts == [] ==> r == []
    ensures |parts| == 1 ==> r == parts[0]
  {
    if parts == [] then []
    else if |parts| == 1 then parts[0]
    else Join(parts[..|parts| - 1], sep) + sep + parts[|parts| - 1]
  }

  /** Joining one more part. */
  lemma {:induction false} JoinSnoc(parts: seq<string>, p: string, sep: string)
    ensures Join(parts + [p], sep) == if parts == [] then p else Join(parts, sep) + sep + p
  {
    if parts != [] {
      assert (parts + [p])[..|parts|] == parts;
    }
  }

  /** Extending the last part by `x` extends the joined string by `x`. */
  lemma {:induction false} JoinExtendLast(parts: seq<string>, x: string, sep: string)
    requires parts != []
    ensures var init := parts[..|parts| - 1];
      Join(init + [parts[|parts| - 1] + x], sep) == Join(parts, sep) + x
  {
    var init := parts[..|parts| - 1];
    var last := parts[|parts| - 1];
    JoinSnoc(init, last + x, sep);
    JoinSnoc(init, last, sep);
    assert init + [last] == parts;
  }

  /** Putting a part in front adds it and a separator in front of the joined string. */
  lemma {:induction false} JoinCons(p: string, parts: seq<string>, sep: string)
    requires parts != []
    ensures Join([p] + parts, sep) == p + sep + Join(parts, sep)
    decreases |parts|
  {
    if |parts| == 1 {
      JoinSnoc([p], parts[0], sep);
      assert [p] + [parts[0]] == [p] + parts;
    } else {
      var init := parts[..|parts| - 1];
      var last := parts[|parts| - 1];
      assert Join([p] + parts, sep) == Join([p] + init, sep) + sep + last by {
        assert [p] + parts == ([p] + init) + [last];
        JoinSnoc([p] + init, last, sep);
      }
      assert Join(parts, sep) == Join(init, sep) + sep + last by {
        JoinSnoc(init, last, sep);
        assert init + [last] == parts;
      }
      JoinCons(p, init, sep);
      var j := Join(init, sep);
      assert (p + sep + j) + sep + last == p + sep + (j + sep + last) by {
        ConcatAssoc(p + sep, j, sep);
        ConcatAssoc(p + sep, j + sep, last);
      }
    }
  }

  /** Extending the first part by a prefix `x` extends the joined string by `x` in front. */
  lemma {:induction false} JoinExtendFirst(x: string, parts: seq<string>, sep: string)
    requires parts != []
    ensures Join([x + parts[0]] + parts[1..], sep) == x + Join(parts, sep)
    decreases |parts|
  {
    if |parts| > 1 {
      var init := parts[..|parts| - 1];
      var last := parts[|parts| - 1];
      var u := [x + parts[0]] + parts[1..];
      assert u[..|u| - 1] == [x + init[0]] + init[1..];
      assert u[|u| - 1] == last;
      JoinExtendFirst(x, init, sep);
      var j := Join(init, sep);
      assert (x + j) + sep + last == x + (j + sep + last) by {
        ConcatAssoc(x, j, sep);
        ConcatAssoc(x, j + sep, last);
      }
    }
  }

  /** No whitespace anywhere in `w`. */
  predicate NoSpace(w: string)
  {
    forall i :: 0 <= i < |w| ==> !IsSpace(w[i])
  }

  /** `s.split()`: the maximal runs of non-whitespace characters, in order. */
  function Words(s: string): (ws: seq<string>)
    ensures s != [] && !IsSpace(s[0]) ==> ws != []
  {
    if s == [] then []
    else if IsSpace(s[0]) then Words(s[1..])
    else
      var rest := Words(s[1..]);
      if |s| > 1 && !IsSpace(s[1]) then [[s[0]] + rest[0]] + rest[1..]
      else [[s[0]]] + rest
  }

  /**
   * The words are non-empty and hold no whitespace, so they are trimmed; there
   * are none exactly when the string is all whitespace.
   */
  lemma {:induction false} WordsFacts(s: string)
    ensures forall k :: 0 <= k < |Words(s)| ==> Words(s)[k] != [] && NoSpace(Words(s)[k])
    ensures Fragments(Words(s))
    ensures Words(s) == [] <==> AllSpace(s)
  {
    var ws := Words(s);
    if s != [] {
      AllSpaceCons(s);
      var rest := Words(s[1..]);
      WordsFacts(s[1..]);
      if !IsSpace(s[0]) {
        if |s| > 1 && !IsSpace(s[1]) {
          var w := [s[0]] + rest[0];
          forall i | 0 <= i < |w| ensures !IsSpace(w[i]) {
            if i > 0 { assert w[i] == rest[0][i - 1]; }
          }
          forall k | 1 <= k < |ws| ensures ws[k] == rest[k] { }
        } else {
          forall k | 1 <= k < |ws| ensures ws[k] == rest[k - 1] { }
        }
      }
    }
    forall k | 0 <= k < |ws| ensures ws[k] != [] && Stripped(ws[k]) {
      assert !IsSpace(ws[k][0]) && !IsSpace(ws[k][|ws[k]| - 1]);
    }
  }

  /** Stripping whitespace padding from around a non-empty trimmed string gives that string. */
  lemma {:induction false} StripPadded(a: string, j: string, b: string)
    requires AllSpace(a) && AllSpace(b) && j != [] && Stripped(j)
    ensures Strip(a + j + b) == j
  {
    var s := a + j + b;
    assert s[|a|] == j[0] && s[|a| + |j| - 1] == j[|j| - 1];
    var lo := SkipLeading(s, 0);
    SkipLeadingFacts(s, 0);
    assert lo == |a|;
    var hi := SkipTrailing(s, lo, |s|);
    SkipTrailingFacts(s, lo, |s|);
    assert hi == |a| + |j|;
    assert s[lo..hi] == j;
  }

  /** `s.split(sep)` for a one-character separator: the pieces between separators, at least one. */
  function Split(s: string, sep: char): (parts: seq<string>)
    ensures parts != []
    ensures forall k :: 0 <= k < |parts| ==> sep !in parts[k]
  {
    if s == [] then [[]]
    else
      var init := Split(s[..|s| - 1], sep);
      var ch := s[|s| - 1];
      if ch == sep then init + [[]]
      else init[..|init| - 1] + [init[|init| - 1] + [ch]]
  }

  /** Splitting and joining back with the same separator gives the string back. */
  lemma {:induction false} SplitJoin(s: string, sep: char)
    ensures Join(Split(s, sep), [sep]) == s
  {
    if s != [] {
      var prefix := s[..|s| - 1];
      var init := Split(prefix, sep);
      var ch := s[|s| - 1];
      SplitJoin(prefix, sep);
      if ch == sep {
        assert Split(s, sep) == init + [[]];
        JoinSnoc(init, [], [sep]);
        assert Join(init, [sep]) + [sep] + [] == prefix + [ch];
      } else {
        assert Split(s, sep) == init[..|init| - 1] + [init[|init| - 1] + [ch]];
        JoinExtendLast(init, [ch], [sep]);
      }
    }
  }

  /** A string made of separators only splits into empty pieces. */
  lemma {:induction false} SplitOnlySeparators(s: string, sep: char)
    requires forall i :: 0 <= i < |s| ==> s[i] == sep
    ensures forall k :: 0 <= k < |Split(s, sep)| ==> Split(s, sep)[k] == []
  {
    if s != [] {
      SplitOnlySeparators(s[..|s| - 1], sep);
    }
  }

  /** A separator followed by a piece without separators adds that piece at the end. */
  lemma {:induction false} SplitSepThen(a: string, b: string, sep: char)
    requires sep !in b
    ensures Split(a + [sep] + b, sep) == Split(a, sep) + [b]
    decreases |b|
  {
    var s := a + [sep] + b;
    if b == [] {
      assert s[..|s| - 1] == a;
    } else {
      var b' := b[..|b| - 1];
      SplitSepThen(a, b', sep);
      assert s[..|s| - 1] == a + [sep] + b';
      assert b' + [b[|b| - 1]] == b;
    }
  }

  /** Every part is a non-empty stripped string. */
  predicate Fragments(parts: seq<string>)
  {
    forall k :: 0 <= k < |parts| ==> parts[k] != [] && Stripped(parts[k])
  }

  /**
   * Joining non-empty stripped fragments with single spaces gives a stripped
   * string that is empty exactly when there are no fragments.
   */
  lemma {:induction false} JoinFragments(parts: seq<string>)
    requires Fragments(parts)
    ensures Stripped(Join(parts, " "))
    ensures Join(parts, " ") == [] <==> parts == []
    ensures parts != [] ==> Join(parts, " ")[0] == parts[0][0]
    ensures parts != [] ==> Join(parts, " ")[|Join(parts, " ")| - 1] == parts[|parts| - 1][|parts[|parts| - 1]| - 1]
  {
    if |parts| > 1 {
      var init := parts[..|parts| - 1];
      JoinFragments(init);
    }
  }

  /** `s.lstrip(chars)`: drop the longest prefix made of characters in `chars`. */
  function LStripChars(s: string, chars: set<char>): (r: string)
    ensures |r| <= |s|
  {
    if s != [] && s[0] in chars then LStripChars(s[1..], chars) else s
  }

  /**
   * `lstrip` removes a prefix made only of characters in `chars` and stops at
   * the first character outside `chars`.
   */
  lemma {:induction false} LStripCharsFacts(s: string, chars: set<char>)
    ensures var r := LStripChars(s, chars);
      r == s[|s| - |r|..] &&
      (forall i :: 0 <= i < |s| - |r| ==> s[i] in chars) &&
      (r == [] || r[0] !in chars)
  {
    if s != [] && s[0] in chars {
      LStripCharsFacts(s[1..], chars);
      var r := LStripChars(s, chars);
      forall i | 1 <= i < |s| - |r| ensures s[i] in chars {
        assert s[i] == s[1..][i - 1];
      }
    }
  }

  /** Stripping a prefix of characters in `chars` from in front of a string that starts with none of them. */
  lemma {:induction false} LStripPrefix(p: string, rest: string, chars: set<char>)
    requires forall i :: 0 <= i < |p| ==> p[i] in chars
    requires rest == [] || rest[0] !in chars
    ensures LStripChars(p + rest, chars) == rest
  {
    if p != [] {
      LStripPrefix(p[1..], rest, chars);
      assert (p + rest)[1..] == p[1..] + rest;
    }
  }

  /** `lower()` on one character: an ASCII capital becomes its small letter, 32 code points on. */
  function LowerChar(c: char): (d: char)
    ensures 'A' <= c <= 'Z' ==> 'a' <= d <= 'z' && d as int == c as int + 32
    ensures !('A' <= c <= 'Z') ==> d == c
  {
    if 'A' <= c <= 'Z' then (c as int - 'A' as int + 'a' as int) as char else c
  }

  /** `s.lower()` on ASCII letters. */
  function Lower(s: string): (r: string)
    ensures |r| == |s|
    ensures forall i :: 0 <= i < |s| ==> r[i] == LowerChar(s[i])
  {
    seq(|s|, i requires 0 <= i < |s| => LowerChar(s[i]))
  }

  /** Lower-cased text holds no ASCII capital, so lower-casing twice changes nothing more. */
  lemma {:induction false} LowerFacts(s: string)
    ensures forall i :: 0 <= i < |Lower(s)| ==> !('A' <= Lower(s)[i] <= 'Z')
    ensures Lower(Lower(s)) == Lower(s)
  {
    var l := Lower(s);
    forall i | 0 <= i < |l| ensures !('A' <= l[i] <= 'Z') && LowerChar(l[i]) == l[i] {
      assert l[i] == LowerChar(s[i]);
    }
  }

  predicate StartsWith(s: string, prefix: string)
  {
    |prefix| <= |s| && s[..|prefix|] == prefix
  }

  lemma {:induction false} StartsWithTrans(a: string, b: string, c: string)
    requires StartsWith(a, b) && StartsWith(b, c)
    ensures StartsWith(a, c)
  {
    assert a[..|c|] == a[..|b|][..|c|];
  }
}

=== FILE: TextChunker.dfy ===
/**
 * The sequential, boundary-aware text chunker of the transcript pipeline
 * (utils/text_chunker.py).
 *
 * Text is first normalised (whitespace runs collapsed to one space, both ends
 * trimmed). A cursor then walks the normalised text: each window ends just
 * after the first boundary character at or past `start + chunkSize`, the next
 * window starts `chunkOverlap` characters before that end, rewound to a
 * boundary and moved past whitespace, and is forced to the previous end when
 * that would not move forward. Window slices shorter than `minChunkLength`
 * are glued to the previous chunk; finally every chunk is numbered.
 */
module TextChunker {
  import opened Wrappers
  import opened Strings

  /** The characters at which a chunk may end (`BOUNDARY_CHARS`). */
  const BoundaryChars: set<char> := {
    ' ', '\t', '\n', '\r', '.', ',', '!', '?', ';', ':', '\U{2014}', '-', '\U{2026}',
    '"', '\'', '(', ')', '[', ']', '{', '}'
  }

  predicate IsBoundary(c: char)
  {
    c in BoundaryChars
  }

  function Min(a: int, b: int): int
  {
    if a <= b then a else b
  }

  // ---------------------------------------------------------------------------
  // Configuration
  // ---------------------------------------------------------------------------

  /** The `ValueError` raised for a non-positive chunk size. */
  datatype ConfigError = ChunkSizeNotPositive

  /** A constructed chunker; its settings never change after construction. */
  datatype Chunker = Chunker(chunkSize: nat, chunkOverlap: nat, minChunkLength: nat)
  {
    /** What construction guarantees about the settings. */
    predicate Valid()
    {
      0 < chunkSize && chunkOverlap < chunkSize
    }
  }

  /**
   * `TextChunker(chunk_size, chunk_overlap, min_chunk_length)`: rejects a
   * non-positive size, clamps the overlap into [0, chunkSize - 1] and the
   * minimum length to at least 0.
   */
  function New(chunkSize: int, chunkOverlap: int, minChunkLength: int): (r: Result<Chunker, ConfigError>)
    ensures r.Failure? <==> chunkSize <= 0
    ensures r.Success? ==> r.value.Valid() && r.value.chunkSize == chunkSize
    ensures r.Success? && 0 <= chunkOverlap < chunkSize ==> r.value.chunkOverlap == chunkOverlap
    ensures r.Success? && chunkOverlap < 0 ==> r.value.chunkOverlap == 0
    ensures r.Success? && chunkSize <= chunkOverlap ==> r.value.chunkOverlap == chunkSize - 1
    ensures r.Success? && 0 <= minChunkLength ==> r.value.minChunkLength == minChunkLength
    ensures r.Success? && minChunkLength < 0 ==> r.value.minChunkLength == 0
  {
    if chunkSize <= 0 then Failure(ChunkSizeNotPositive)
    else
      var overlap := if chunkOverlap < chunkSize - 1 then chunkOverlap else chunkSize - 1;
      Success(Chunker(chunkSize, if overlap < 0 then 0 else overlap,
                      if minChunkLength < 0 then 0 else minChunkLength))
  }

  // ---------------------------------------------------------------------------
  // Normalisation
  // ---------------------------------------------------------------------------

  /** Positions `i` and `i + 1` of `t` are both spaces. */
  ghost predicate DoubleSpaceAt(t: string, i: nat)
    requires i + 1 < |t|
  {
    t[i] == ' ' && t[i + 1] == ' '
  }

  /** Only ' ' as whitespace, and never two spaces in a row. */
  ghost predicate SingleSpaced(t: string)
  {
    (forall i :: 0 <= i < |t| && IsSpace(t[i]) ==> t[i] == ' ') &&
    (forall i :: 0 <= i < |t| - 1 ==> !DoubleSpaceAt(t, i))
  }

  /** What normalisation produces: trimmed and single-spaced. */
  ghost predicate Normalized(t: string)
  {
    Stripped(t) && SingleSpaced(t)
  }

  lemma {:induction false} SingleSpacedSlice(t: string, i: nat, j: nat)
    requires i <= j <= |t| && SingleSpaced(t)
    ensures SingleSpaced(t[i..j])
  {
    var u := t[i..j];
    forall k | 0 <= k < |u| ensures u[k] == t[i + k] { }
    forall k | 0 <= k < |u| - 1 ensures !DoubleSpaceAt(u, k) {
      assert !DoubleSpaceAt(t, i + k);
    }
  }

  /** Putting a character in front of single-spaced text keeps it single-spaced unless it makes a double space. */
  lemma {:induction false} ConsSingleSpaced(ch: char, t: string)
    requires SingleSpaced(t) && (IsSpace(ch) ==> ch == ' ' && (t == [] || t[0] != ' '))
    ensures SingleSpaced([ch] + t)
  {
    var u := [ch] + t;
    forall k | 1 <= k < |u| ensures u[k] == t[k - 1] { }
    forall k | 1 <= k < |u| - 1 ensures !DoubleSpaceAt(u, k) {
      assert !DoubleSpaceAt(t, k - 1);
    }
  }

  /** `re.sub(r"\s+", " ", s)`: every maximal whitespace run becomes one space. */
  function Collapse(s: string): (r: string)
    ensures SingleSpaced(r)
    ensures r == [] <==> s == []
    ensures s != [] ==> (IsSpace(r[0]) <==> IsSpace(s[0]))
    ensures AllSpace(r) <==> AllSpace(s)
  {
    if s == [] then []
    else
      AllSpaceCons(s);
      if IsSpace(s[0]) then
        if |s| > 1 && IsSpace(s[1]) then Collapse(s[1..])
        else
          var r := [' '] + Collapse(s[1..]);
          ConsSingleSpaced(' ', Collapse(s[1..]));
          AllSpaceCons(r);
          assert r[1..] == Collapse(s[1..]);
          r
      else
        var r := [s[0]] + Collapse(s[1..]);
        ConsSingleSpaced(s[0], Collapse(s[1..]));
        assert r[1..] == Collapse(s[1..]);
        r
  }

  /** `_normalize_text`: collapse whitespace runs, then strip both ends. */
  function Normalize(s: string): (r: string)
    ensures Normalized(r)
    ensures r == [] <==> AllSpace(s)
  {
    var c := Collapse(s);
    var a := SkipLeading(c, 0);
    SingleSpacedSlice(c, a, SkipTrailing(c, a, |c|));
    StripFacts(c);
    Strip(c)
  }

  /** A string that is already normalised is left unchanged by the whitespace collapse. */
  lemma {:induction false} CollapseKeepsNormalized(t: string)
    requires SingleSpaced(t)
    ensures Collapse(t) == t
  {
    if t != [] {
      if |t| > 1 {
        assert !DoubleSpaceAt(t, 0);
      }
      SingleSpacedSlice(t, 1, |t|);
      assert t[1..|t|] == t[1..];
      CollapseKeepsNormalized(t[1..]);
    }
  }

  /** Normalisation is the identity on normalised text, hence idempotent. */
  lemma {:induction false} NormalizeIdempotent(s: string)
    ensures Normalized(s) ==> Normalize(s) == s
    ensures Normalize(Normalize(s)) == Normalize(s)
  {
    if Normalized(s) {
      CollapseKeepsNormalized(s);
    }
    CollapseKeepsNormalized(Normalize(s));
  }

  /** One space when `b` holds, nothing otherwise. */
  function Edge(b: bool): string
  {
    if b then " " else ""
  }

  /** A non-empty whitespace-only string collapses to one space. */
  lemma {:induction false} CollapseAllSpace(s: string)
    requires s != [] && AllSpace(s)
    ensures Collapse(s) == " "
  {
    AllSpaceCons(s);
    if |s| > 1 {
      CollapseAllSpace(s[1..]);
    }
  }

  /**
   * Collapsing keeps the words of `s` in order, one space between two words,
   * and one space for leading and for trailing whitespace.
   */
  lemma {:induction false} CollapseWords(s: string)
    requires !AllSpace(s)
    ensures Collapse(s) == Edge(IsSpace(s[0])) + Join(Words(s), " ") + Edge(IsSpace(s[|s| - 1]))
    decreases |s|
  {
    AllSpaceCons(s);
    var t := s[1..];
    if |s| > 1 {
      assert s[|s| - 1] == t[|t| - 1];
    }
    if IsSpace(s[0]) {
      CollapseWords(t);
      CollapseWordsAfterSpace(s);
    } else if |s| == 1 {
      assert Words(s) == [[s[0]]];
    } else if AllSpace(t) {
      CollapseAllSpace(t);
      WordsFacts(t);
      assert Words(s) == [[s[0]]];
    } else {
      CollapseWords(t);
      WordsFacts(t);
      CollapseWordsAfterWord(s);
    }
  }

  /** The step of `CollapseWords` for a string that starts with whitespace. */
  lemma {:induction false} CollapseWordsAfterSpace(s: string)
    requires |s| > 1 && IsSpace(s[0]) && !AllSpace(s[1..])
    requires Collapse(s[1..]) == Edge(IsSpace(s[1])) + Join(Words(s[1..]), " ") + Edge(IsSpace(s[|s| - 1]))
    ensures Collapse(s) == Edge(true) + Join(Words(s), " ") + Edge(IsSpace(s[|s| - 1]))
  {
    assert Words(s) == Words(s[1..]);
  }

  /** The step of `CollapseWords` for a string that starts with a word and has more words after its first character. */
  lemma {:induction false} CollapseWordsAfterWord(s: string)
    requires |s| > 1 && !IsSpace(s[0]) && !AllSpace(s[1..]) && Words(s[1..]) != []
    requires Collapse(s[1..]) == Edge(IsSpace(s[1])) + Join(Words(s[1..]), " ") + Edge(IsSpace(s[|s| - 1]))
    ensures Collapse(s) == Edge(false) + Join(Words(s), " ") + Edge(IsSpace(s[|s| - 1]))
  {
    var e, j, z := Edge(IsSpace(s[1])), Join(Words(s[1..]), " "), Edge(IsSpace(s[|s| - 1]));
    WordsCons(s);
    var w := [s[0]] + e + j;
    assert Collapse(s) == [s[0]] + Collapse(s[1..]);
    assert [s[0]] + ((e + j) + z) == w + z by {
      ConcatAssoc([s[0]], e + j, z);
      ConcatAssoc([s[0]], e, j);
    }
    assert Edge(false) + Join(Words(s), " ") == w;
  }

  /** A word character in front of more words: either it starts the first of them or a word of its own. */
  lemma {:induction false} WordsCons(s: string)
    requires |s| > 1 && !IsSpace(s[0]) && Words(s[1..]) != []
    ensures Join(Words(s), " ") == [s[0]] + Edge(IsSpace(s[1])) + Join(Words(s[1..]), " ")
  {
    var rest := Words(s[1..]);
    if IsSpace(s[1]) {
      assert Words(s) == [[s[0]]] + rest;
      JoinCons([s[0]], rest, " ");
    } else {
      assert Words(s) == [[s[0]] + rest[0]] + rest[1..];
      JoinExtendFirst([s[0]], rest, " ");
    }
  }

  /**
   * Normalising gives the words of the input (its maximal runs of
   * non-whitespace characters, as `split()` finds them) in order, joined by
   * single spaces: no character other than whitespace is lost, added or moved.
   */
  lemma {:induction false} NormalizeWords(s: string)
    ensures Normalize(s) == Join(Words(s), " ")
  {
    WordsFacts(s);
    if !AllSpace(s) {
      var j := Join(Words(s), " ");
      JoinFragments(Words(s));
      CollapseWords(s);
      StripPadded(Edge(IsSpace(s[0])), j, Edge(IsSpace(s[|s| - 1])));
    }
  }

  // ---------------------------------------------------------------------------
  // Moving window ends forward and window starts backward
  // ---------------------------------------------------------------------------

  /**
   * The position `_extend_end(text, end)` returns: just past the first
   * boundary character at or after `end`, or the text length when there is none.
   */
  function ExtendedEnd(text: string, end: nat): (r: nat)
    ensures end <= |text| ==> end <= r
    ensures r <= |text|
    ensures r == |text| || (end < r && IsBoundary(text[r - 1]))
    decreases |text| - end
  {
    if end >= |text| then |text|
    else if IsBoundary(text[end]) then end + 1
    else ExtendedEnd(text, end + 1)
  }

  /** The extended end stops at the first boundary: no boundary lies in between. */
  lemma {:induction false} ExtendedEndFirstBoundary(text: string, end: nat)
    ensures forall i :: end <= i < ExtendedEnd(text, end) - 1 ==> !IsBoundary(text[i])
    decreases |text| - end
  {
    if end < |text| && !IsBoundary(text[end]) {
      ExtendedEndFirstBoundary(text, end + 1);
    }
  }

  /** `_extend_end`: advance a cursor to the next boundary and step past it. */
  method ExtendEnd(text: string, end: nat) returns (r: nat)
    ensures r == ExtendedEnd(text, end)
  {
    var cursor := end;
    while cursor < |text| && !IsBoundary(text[cursor])
      invariant end <= cursor
      invariant ExtendedEnd(text, cursor) == ExtendedEnd(text, end)
      decreases |text| - cursor
    {
      cursor := cursor + 1;
    }
    if cursor < |text| && IsBoundary(text[cursor]) {
      cursor := cursor + 1;
    }
    r := Min(cursor, |text|);
  }

  /** The first loop of `_rewind_start`: back up until the previous character is a boundary. */
  function BackToBoundary(text: string, s: nat): (p: nat)
    requires s <= |text|
    ensures p <= s
    ensures p == 0 || IsBoundary(text[p - 1])
  {
    if s == 0 || IsBoundary(text[s - 1]) then s else BackToBoundary(text, s - 1)
  }

  /** Backing up stops at the nearest boundary: none lies between the result and `s`. */
  lemma {:induction false} BackToBoundaryNearest(text: string, s: nat)
    requires s <= |text|
    ensures forall i :: BackToBoundary(text, s) <= i < s ==> !IsBoundary(text[i])
  {
    if s > 0 && !IsBoundary(text[s - 1]) {
      BackToBoundaryNearest(text, s - 1);
    }
  }

  /** The second loop of `_rewind_start`: move forward past whitespace. */
  function SkipSpaces(text: string, p: nat): (r: nat)
    requires p <= |text|
    ensures p <= r <= |text|
    ensures p < r ==> IsSpace(text[r - 1])
    ensures r == |text| || !IsSpace(text[r])
    decreases |text| - p
  {
    if p < |text| && IsSpace(text[p]) then SkipSpaces(text, p + 1) else p
  }

  /** Only whitespace is skipped. */
  lemma {:induction false} SkipSpacesOnlySpaces(text: string, p: nat)
    requires p <= |text|
    ensures forall i :: p <= i < SkipSpaces(text, p) ==> IsSpace(text[i])
    decreases |text| - p
  {
    if p < |text| && IsSpace(text[p]) {
      SkipSpacesOnlySpaces(text, p + 1);
    }
  }

  /** Normalised text has no two spaces in a row, so at most one character is skipped. */
  lemma {:induction false} SkipSpacesAtMostOne(text: string, p: nat)
    requires p <= |text| && Normalized(text)
    ensures SkipSpaces(text, p) <= p + 1
  {
    if p < |text| && IsSpace(text[p]) {
      assert p + 1 < |text| && !DoubleSpaceAt(text, p);
    }
  }

  /**
   * The position `_rewind_start(text, s)` returns: never on whitespace, and
   * either 0 or right after a boundary or a whitespace character.
   */
  function RewoundStart(text: string, s: nat): (r: nat)
    requires s <= |text|
    ensures r <= |text|
    ensures r == |text| || !IsSpace(text[r])
    ensures r == 0 || IsBoundary(text[r - 1]) || IsSpace(text[r - 1])
  {
    SkipSpaces(text, BackToBoundary(text, s))
  }

  /**
   * In normalised text a rewound start is 0 or follows a boundary (the only
   * whitespace left is ' ', itself a boundary), and it lies at most one
   * character past `s`, that character being the space it skipped.
   */
  lemma {:induction false} RewoundStartNormalized(text: string, s: nat)
    requires s <= |text| && Normalized(text)
    ensures var r := RewoundStart(text, s);
      (r == 0 || IsBoundary(text[r - 1])) && r <= s + 1 && (r == s + 1 ==> text[s] == ' ')
  {
    SkipSpacesAtMostOne(text, BackToBoundary(text, s));
  }

  /** `_rewind_start`: the two cursor loops. */
  method RewindStart(text: string, start: nat) returns (r: nat)
    requires start <= |text|
    ensures r == RewoundStart(text, start)
  {
    var cursor: nat := start;
    while cursor > 0 && !IsBoundary(text[cursor - 1])
      invariant cursor <= start
      invariant BackToBoundary(text, cursor) == BackToBoundary(text, start)
    {
      cursor := cursor - 1;
    }
    while cursor < |text| && IsSpace(text[cursor])
      invariant cursor <= |text|
      invariant SkipSpaces(text, cursor) == SkipSpaces(text, BackToBoundary(text, start))
      decreases |text| - cursor
    {
      cursor := cursor + 1;
    }
    r := cursor;
  }

  // ---------------------------------------------------------------------------
  // The windows of the main loop
  // ---------------------------------------------------------------------------

  /** A half-open range [start, end) of the normalised text. */
  datatype Window = Window(start: nat, end: nat)

  /**
   * The start of the window after [start, end) when `end` is not the text end:
   * `end - chunkOverlap` (at least 0) rewound to a boundary, or `end` itself
   * when that does not move past `start`. It always moves forward, and it
   * lands on whitespace only when it was forced to `end`, which needs a
   * positive overlap.
   */
  function NextStart(c: Chunker, text: string, start: nat, end: nat): (r: nat)
    requires c.Valid() && start < end < |text| && IsBoundary(text[end - 1])
    ensures start < r <= |text|
    ensures r < |text| && IsSpace(text[r]) ==> r == end && 0 < c.chunkOverlap
  {
    var rewound := RewoundStart(text, if end >= c.chunkOverlap then end - c.chunkOverlap else 0);
    assert c.chunkOverlap == 0 ==> rewound >= end by {
      if c.chunkOverlap == 0 {
        assert BackToBoundary(text, end) == end;
      }
    }
    if rewound <= start then Min(|text|, end) else rewound
  }

  /**
   * The cursor update at the bottom of the main loop of `chunk_text`: step
   * back by the overlap, rewind to a word start, and jump to the end of the
   * window if that would not move the cursor forward.
   */
  method AdvanceCursor(c: Chunker, text: string, start: nat, end: nat) returns (r: nat)
    requires c.Valid() && start < end < |text| && IsBoundary(text[end - 1])
    ensures r == NextStart(c, text, start, end)
  {
    r := if end >= c.chunkOverlap then end - c.chunkOverlap else 0;
    r := RewindStart(text, r);
    if r <= start {
      r := Min(|text|, end);
    }
  }

  /** In normalised text the next start leaves out at most one character after `end`, a space. */
  lemma {:induction false} NextStartGap(c: Chunker, text: string, start: nat, end: nat)
    requires c.Valid() && start < end < |text| && IsBoundary(text[end - 1]) && Normalized(text)
    ensures var r := NextStart(c, text, start, end);
      r <= end || (r == end + 1 && text[end] == ' ')
  {
    RewoundStartNormalized(text, if end >= c.chunkOverlap then end - c.chunkOverlap else 0);
  }

  /**
   * Where the window at `start` ends: just past the first boundary at or after
   * `start + chunkSize`, or at the text end.
   */
  function WindowEnd(c: Chunker, text: string, start: nat): (end: nat)
    requires c.Valid() && start < |text|
    ensures start < end <= |text|
    ensures end < |text| ==> IsBoundary(text[end - 1])
  {
    ExtendedEnd(text, Min(|text|, start + c.chunkSize))
  }

  /**
   * The slice [start, end) holds only whitespace: skipping whitespace from
   * `start` reaches `end`. This is the test `Strip(text[start..end]) == []`
   * (`BlankSliceStrip`), written on positions so that proofs about `Windows`
   * need not reason about the stripped slice.
   */
  predicate BlankSlice(text: string, start: nat, end: nat)
    requires start <= end <= |text|
  {
    SkipLeading(text, start) >= end
  }

  /** A slice is blank exactly when it strips to the empty string. */
  lemma {:induction false} BlankSliceStrip(text: string, start: nat, end: nat)
    requires start <= end <= |text|
    ensures BlankSlice(text, start, end) <==> Strip(text[start..end]) == []
  {
    var slice := text[start..end];
    var r := SkipLeading(text, start);
    SkipLeadingFacts(text, start);
    StripFacts(slice);
    if r < end {
      assert slice[r - start] == text[r];
    } else {
      forall i | 0 <= i < |slice| ensures IsSpace(slice[i]) {
        assert slice[i] == text[start + i];
      }
    }
  }

  /**
   * The windows the main loop of `chunk_text` visits from `start` on. The loop
   * stops on an all-whitespace slice and after the window that reaches the
   * text end. The first window starts at `start`.
   */
  function Windows(c: Chunker, text: string, start: nat): (ws: seq<Window>)
    requires c.Valid()
    ensures ws != [] ==> ws[0].start == start
    decreases |text| - start
  {
    if start >= |text| then []
    else
      var end := WindowEnd(c, text, start);
      if BlankSlice(text, start, end) then []
      else if end >= |text| then [Window(start, end)]
      else
        [Window(start, end)] + Windows(c, text, NextStart(c, text, start, end))
  }

  /** Windows that lie inside `text`. */
  predicate Inside(text: string, ws: seq<Window>)
  {
    forall k :: 0 <= k < |ws| ==> ws[k].start <= ws[k].end <= |text|
  }

  /** Windows that lie inside `text`, are non-empty and start at or after `from`. */
  predicate InsideFrom(text: string, ws: seq<Window>, from: nat)
  {
    Inside(text, ws) && forall k :: 0 <= k < |ws| ==> from <= ws[k].start < ws[k].end
  }

  lemma {:induction false} InsideFromCons(text: string, w: Window, rest: seq<Window>, from: nat)
    requires w.start < w.end <= |text| && w.start < from && InsideFrom(text, rest, from)
    ensures InsideFrom(text, [w] + rest, w.start)
  {
    var ws := [w] + rest;
    forall k | 1 <= k < |ws| ensures ws[k] == rest[k - 1] { }
  }

  /** Every window is non-empty and lies in the text from `start` on. */
  lemma {:induction false} WindowsInside(c: Chunker, text: string, start: nat)
    requires c.Valid()
    ensures InsideFrom(text, Windows(c, text, start), start)
    decreases |text| - start
  {
    if start < |text| {
      var end := WindowEnd(c, text, start);
      if BlankSlice(text, start, end) {
        WindowsBlank(c, text, start, end);
      } else if end == |text| {
        WindowsLast(c, text, start, end);
      } else {
        WindowsNext(c, text, start, end);
        var next := NextStart(c, text, start, end);
        WindowsInside(c, text, next);
        InsideFromCons(text, Window(start, end), Windows(c, text, next), next);
      }
    }
  }

  /** Windows inside `text` none of whose slices is all whitespace. */
  predicate NotBlank(text: string, ws: seq<Window>)
  {
    Inside(text, ws) && forall k :: 0 <= k < |ws| ==> Strip(text[ws[k].start..ws[k].end]) != []
  }

  lemma {:induction false} NotBlankCons(text: string, w: Window, rest: seq<Window>)
    requires w.start <= w.end <= |text| && Strip(text[w.start..w.end]) != [] && NotBlank(text, rest)
    ensures NotBlank(text, [w] + rest)
  {
    var ws := [w] + rest;
    forall k | 1 <= k < |ws| ensures ws[k] == rest[k - 1] { }
  }

  /** Every window holds a slice that is not all whitespace. */
  lemma {:induction false} WindowsNotBlank(c: Chunker, text: string, start: nat)
    requires c.Valid()
    ensures NotBlank(text, Windows(c, text, start))
    decreases |text| - start
  {
    if start < |text| {
      var end := WindowEnd(c, text, start);
      BlankSliceStrip(text, start, end);
      if BlankSlice(text, start, end) {
        WindowsBlank(c, text, start, end);
      } else if end == |text| {
        WindowsLast(c, text, start, end);
      } else {
        WindowsNext(c, text, start, end);
        var next := NextStart(c, text, start, end);
        WindowsNotBlank(c, text, next);
        NotBlankCons(text, Window(start, end), Windows(c, text, next));
      }
    }
  }

  /** Two consecutive windows as the loop produces them. */
  predicate Chained(text: string, w: Window, next: Window)
  {
    w.start < next.start && w.end < |text| &&
    (next.start <= w.end || (next.start == w.end + 1 && text[w.end] == ' '))
  }

  /** Every window of `ws` is chained to the one after it. */
  predicate ChainedAll(text: string, ws: seq<Window>)
  {
    |ws| < 2 || (Chained(text, ws[0], ws[1]) && ChainedAll(text, ws[1..]))
  }

  /** The index form of `ChainedAll`. */
  lemma {:induction false} ChainedAt(text: string, ws: seq<Window>, k: nat)
    requires ChainedAll(text, ws) && k + 1 < |ws|
    ensures Chained(text, ws[k], ws[k + 1])
  {
    if k > 0 {
      ChainedAt(text, ws[1..], k - 1);
    }
  }

  /**
   * Every window but the last stops short of the text end, and the next one
   * starts strictly later (the loop makes progress); in normalised text it
   * starts no later than the previous one ended, or exactly one space later.
   */
  lemma {:induction false} WindowsChained(c: Chunker, text: string, start: nat)
    requires c.Valid() && Normalized(text)
    ensures ChainedAll(text, Windows(c, text, start))
    decreases |text| - start
  {
    var ws := Windows(c, text, start);
    if start < |text| {
      var end := WindowEnd(c, text, start);
      if BlankSlice(text, start, end) {
        WindowsBlank(c, text, start, end);
      } else if end == |text| {
        WindowsLast(c, text, start, end);
      } else {
        WindowsNext(c, text, start, end);
        var next := NextStart(c, text, start, end);
        var rest := Windows(c, text, next);
        assert ws[1..] == rest;
        NextStartGap(c, text, start, end);
        WindowsChained(c, text, next);
      }
    }
  }

  /** A start the loop can reach in normalised text: not on a space unless the overlap is positive. */
  predicate ReachableStart(c: Chunker, text: string, start: nat)
  {
    start < |text| && (text[start] != ' ' || 0 < c.chunkOverlap)
  }

  /** From a reachable start the window's slice holds a non-space character. */
  lemma {:induction false} ReachableSliceNotBlank(c: Chunker, text: string, start: nat)
    requires c.Valid() && Normalized(text) && ReachableStart(c, text, start)
    ensures var end := WindowEnd(c, text, start);
      start < end && !BlankSlice(text, start, end)
  {
    var end := WindowEnd(c, text, start);
    if text[start] == ' ' {
      assert start + 1 < |text| && !DoubleSpaceAt(text, start);
      assert 1 < c.chunkSize && start + 1 < end;
      assert SkipLeading(text, start + 1) == start + 1;
    }
  }

  /**
   * On normalised text the loop never meets a blank slice: from a reachable
   * start, the last window ends exactly at the text end.
   */
  lemma {:induction false} WindowsReachEnd(c: Chunker, text: string, start: nat)
    requires c.Valid() && Normalized(text) && ReachableStart(c, text, start)
    ensures var ws := Windows(c, text, start); ws != [] && ws[|ws| - 1].end == |text|
    decreases |text| - start
  {
    var end := WindowEnd(c, text, start);
    ReachableSliceNotBlank(c, text, start);
    var ws := Windows(c, text, start);
    if end == |text| {
      WindowsLast(c, text, start, end);
    } else {
      WindowsNext(c, text, start, end);
      var next := NextStart(c, text, start, end);
      var rest := Windows(c, text, next);
      NextStartReachable(c, text, start, end);
      WindowsReachEnd(c, text, next);
      LastOfAppend([Window(start, end)], rest);
    }
  }

  /** The last element of `a + b` is the last of `b` when `b` is not empty. */
  lemma {:induction false} LastOfAppend<T>(a: seq<T>, b: seq<T>)
    requires b != []
    ensures (a + b)[|a + b| - 1] == b[|b| - 1]
  {
  }

  /** From a reachable start the loop moves to another reachable start, or stops at the end. */
  lemma {:induction false} NextStartReachable(c: Chunker, text: string, start: nat, end: nat)
    requires c.Valid() && start < end < |text| && IsBoundary(text[end - 1]) && Normalized(text)
    ensures ReachableStart(c, text, NextStart(c, text, start, end))
  {
    NextStartGap(c, text, start, end);
  }

  /**
   * Full coverage: the windows over a non-empty normalised text start at 0,
   * end at its length, and leave no character uncovered except a single
   * space between two consecutive windows.
   */
  lemma {:induction false} WindowsCoverText(c: Chunker, text: string)
    requires c.Valid() && Normalized(text) && text != []
    ensures var ws := Windows(c, text, 0);
      ws != [] && ws[0].start == 0 && ws[|ws| - 1].end == |text| && ChainedAll(text, ws) &&
      forall i :: 0 <= i < |text| && text[i] != ' ' ==> exists k :: 0 <= k < |ws| && ws[k].start <= i < ws[k].end
  {
    WindowsReachEnd(c, text, 0);
    WindowsChained(c, text, 0);
    var ws := Windows(c, text, 0);
    WindowsInside(c, text, 0);
    ChainCovers(text, ws);
  }

  /** Windows chained as `Windows` chains them cover every non-space character from the first start on. */
  lemma {:induction false} ChainCovers(text: string, ws: seq<Window>)
    requires ws != [] && ws[|ws| - 1].end == |text|
    requires forall k :: 0 <= k < |ws| ==> ws[k].end <= |text|
    requires ChainedAll(text, ws)
    ensures forall i :: ws[0].start <= i < |text| && text[i] != ' ' ==>
      exists k :: 0 <= k < |ws| && ws[k].start <= i < ws[k].end
  {
    if |ws| > 1 {
      ChainCovers(text, ws[1..]);
      forall i | ws[0].start <= i < |text| && text[i] != ' '
        ensures exists k :: 0 <= k < |ws| && ws[k].start <= i < ws[k].end
      {
        if i < ws[0].end {
          assert ws[0].start <= i < ws[0].end;
        } else {
          assert ws[1..][0] == ws[1];
          var k :| 0 <= k < |ws[1..]| && ws[1..][k].start <= i < ws[1..][k].end;
          assert ws[k + 1] == ws[1..][k];
        }
      }
    }
  }

  // ---------------------------------------------------------------------------
  // Chunk texts: slices, merging of short slices, numbering
  // ---------------------------------------------------------------------------

  /** The stripped slice of every window. */
  function Pieces(text: string, ws: seq<Window>): seq<string>
    requires Inside(text, ws)
  {
    seq(|ws|, k requires 0 <= k < |ws| => Strip(text[ws[k].start..ws[k].end]))
  }

  /** The trimmed slices of all the windows over `text`. */
  function WindowPieces(c: Chunker, text: string): seq<string>
    requires c.Valid()
  {
    WindowsInside(c, text, 0);
    Pieces(text, Windows(c, text, 0))
  }

  /** The slice of a window that is not blank, once trimmed, is a fragment. */
  lemma {:induction false} PiecesFragments(text: string, ws: seq<Window>)
    requires NotBlank(text, ws)
    ensures Fragments(Pieces(text, ws))
  {
    forall k | 0 <= k < |ws|
      ensures Stripped(Strip(text[ws[k].start..ws[k].end]))
    {
      StripFacts(text[ws[k].start..ws[k].end]);
    }
  }

  /**
   * The list `chunks` after the loop has handled the slices `ps` in order: a
   * slice shorter than `minLength` is space-joined onto the last chunk when
   * there is one (its length is not checked again); any other slice becomes
   * a chunk of its own.
   */
  function Coalesce(minLength: nat, ps: seq<string>): seq<string>
  {
    if ps == [] then [] else MergeInto(minLength, Coalesce(minLength, ps[..|ps| - 1]), ps[|ps| - 1])
  }

  /** One slice handled by the merging rule. */
  function MergeInto(minLength: nat, chunks: seq<string>, p: string): seq<string>
  {
    if |p| < minLength && chunks != [] then chunks[..|chunks| - 1] + [Strip(chunks[|chunks| - 1] + " " + p)]
    else chunks + [p]
  }

  /** How many of `ps` are shorter than `minLength`. */
  function CountShort(minLength: nat, ps: seq<string>): nat
  {
    if ps == [] then 0
    else CountShort(minLength, ps[..|ps| - 1]) + (if |ps[|ps| - 1]| < minLength then 1 else 0)
  }

  /** Space-joining two non-empty trimmed strings gives a trimmed string that `strip()` leaves alone. */
  lemma {:induction false} SpaceJoinStripped(a: string, b: string)
    requires a != [] && Stripped(a) && b != [] && Stripped(b)
    ensures Stripped(a + " " + b) && Strip(a + " " + b) == a + " " + b
  {
    var m := a + " " + b;
    assert m[0] == a[0] && m[|m| - 1] == b[|b| - 1];
    StripFacts(m);
  }

  /** All but the last of a list of fragments are fragments. */
  lemma {:induction false} FragmentsInit(ps: seq<string>)
    requires Fragments(ps) && ps != []
    ensures Fragments(ps[..|ps| - 1])
  {
    var init := ps[..|ps| - 1];
    forall k | 0 <= k < |init| ensures init[k] == ps[k] { }
  }

  /**
   * Handling one more fragment keeps the chunks non-empty and trimmed, and
   * the first chunk only ever grows at its end.
   */
  lemma {:induction false} MergeIntoFragments(minLength: nat, chunks: seq<string>, p: string)
    requires Fragments(chunks) && p != [] && Stripped(p)
    ensures var r := MergeInto(minLength, chunks, p);
      Fragments(r) && r != [] && (chunks != [] ==> StartsWith(r[0], chunks[0]))
  {
    var r := MergeInto(minLength, chunks, p);
    if |p| < minLength && chunks != [] {
      var last := chunks[|chunks| - 1];
      SpaceJoinStripped(last, p);
      assert r == chunks[..|chunks| - 1] + [last + " " + p];
      forall k | 0 <= k < |r| ensures r[k] != [] && Stripped(r[k]) {
        if k < |r| - 1 {
          assert r[k] == chunks[k];
        }
      }
      if |chunks| == 1 {
        assert (last + " " + p)[..|last|] == last;
      } else {
        assert r[0] == chunks[0];
      }
    } else {
      forall k | 0 <= k < |r| ensures r[k] != [] && Stripped(r[k]) {
        if k < |chunks| {
          assert r[k] == chunks[k];
        }
      }
      if chunks != [] {
        assert r[0] == chunks[0];
      }
    }
  }

  /**
   * Merging keeps the chunks non-empty and trimmed, produces at least one
   * chunk from at least one slice, and keeps the first slice at the head of
   * the first chunk (the first slice is never merged away).
   */
  lemma {:induction false} CoalesceFragments(minLength: nat, ps: seq<string>)
    requires Fragments(ps)
    ensures var cs := Coalesce(minLength, ps);
      Fragments(cs) && (cs == [] <==> ps == []) && (ps != [] ==> StartsWith(cs[0], ps[0]))
  {
    if ps != [] {
      var init := ps[..|ps| - 1];
      var p := ps[|ps| - 1];
      FragmentsInit(ps);
      CoalesceFragments(minLength, init);
      var prev := Coalesce(minLength, init);
      MergeIntoFragments(minLength, prev, p);
      var cs := Coalesce(minLength, ps);
      if init == [] {
        assert cs == [p] && p == ps[0];
      } else {
        assert init[0] == ps[0];
        StartsWithTrans(cs[0], prev[0], ps[0]);
      }
    }
  }

  /** Merging loses no text: the chunks joined with spaces are the slices joined with spaces. */
  lemma {:induction false} CoalesceJoin(minLength: nat, ps: seq<string>)
    requires Fragments(ps)
    ensures Join(Coalesce(minLength, ps), " ") == Join(ps, " ")
  {
    if ps != [] {
      var init := ps[..|ps| - 1];
      var p := ps[|ps| - 1];
      FragmentsInit(ps);
      CoalesceJoin(minLength, init);
      CoalesceFragments(minLength, init);
      var prev := Coalesce(minLength, init);
      if |p| < minLength && prev != [] {
        var merged := prev[|prev| - 1] + " " + p;
        assert Stripped(merged);
        StripFacts(merged);
        JoinAppendToLast(prev, p);
      } else {
        JoinSnoc(prev, p, " ");
      }
      JoinSnoc(init, p, " ");
      assert init + [p] == ps;
    }
  }

  /** Joining after extending the last part by a space and `p` is joining with `p` as one more part. */
  lemma {:induction false} JoinAppendToLast(parts: seq<string>, p: string)
    requires parts != []
    ensures var init := parts[..|parts| - 1];
      Join(init + [parts[|parts| - 1] + " " + p], " ") == Join(parts, " ") + " " + p
  {
    JoinExtendLast(parts, " " + p, " ");
    assert parts[|parts| - 1] + " " + p == parts[|parts| - 1] + (" " + p);
  }

  /** Every short slice after the first is merged away, and only those: one chunk fewer per short slice. */
  lemma {:induction false} CoalesceCount(minLength: nat, ps: seq<string>)
    requires ps != []
    ensures |Coalesce(minLength, ps)| + CountShort(minLength, ps[1..]) == |ps|
    ensures Coalesce(minLength, ps) != []
  {
    var init := ps[..|ps| - 1];
    if init == [] {
      assert ps[1..] == [];
    } else {
      CoalesceCount(minLength, init);
      assert ps[1..][..|ps[1..]| - 1] == init[1..];
    }
  }

  /** With no short slice after the first (always so when `minLength` is 0) nothing is merged. */
  lemma {:induction false} CoalesceNothingShort(minLength: nat, ps: seq<string>)
    requires forall k :: 1 <= k < |ps| ==> minLength <= |ps[k]|
    ensures Coalesce(minLength, ps) == ps
  {
    if ps != [] {
      var init := ps[..|ps| - 1];
      forall k | 1 <= k < |init| ensures minLength <= |init[k]| {
        assert init[k] == ps[k];
      }
      CoalesceNothingShort(minLength, init);
      assert init + [ps[|ps| - 1]] == ps;
    }
  }

  /** A field value in a chunk record. */
  datatype Value = Str(s: string) | Int(i: int) | Null

  /** A chunk record, the dictionary `chunk_text` returns per chunk. */
  type Record = map<string, Value>

  /** The dictionary built for one chunk; `metadata` is applied last, so its keys win. */
  function ChunkRecord(text: string, id: nat, total: nat, metadata: Record): Record
  {
    map["text" := Str(text), "chunk_id" := Int(id), "total_chunks" := Int(total)] + metadata
  }

  /** The records for a list of chunk texts, numbered in order. */
  function Records(chunks: seq<string>, metadata: Record): seq<Record>
  {
    seq(|chunks|, i requires 0 <= i < |chunks| => ChunkRecord(chunks[i], i, |chunks|, metadata))
  }

  /** The chunk texts `chunk_text` produces for `text`. */
  function ChunkTexts(c: Chunker, text: string): seq<string>
    requires c.Valid()
  {
    var normalized := Normalize(text);
    Coalesce(c.minChunkLength, WindowPieces(c, normalized))
  }

  /** The value `chunk_text(text, metadata)` returns. */
  function ChunkRecords(c: Chunker, text: string, metadata: Record): seq<Record>
    requires c.Valid()
  {
    Records(ChunkTexts(c, text), metadata)
  }

  /** A blank slice at `start` ends the windows. */
  lemma {:induction false} WindowsBlank(c: Chunker, text: string, start: nat, end: nat)
    requires c.Valid() && start < end <= |text|
    requires end == WindowEnd(c, text, start)
    requires BlankSlice(text, start, end)
    ensures Windows(c, text, start) == []
  {
  }

  /** A window that reaches the text end is the last one. */
  lemma {:induction false} WindowsLast(c: Chunker, text: string, start: nat, end: nat)
    requires c.Valid() && start < end == |text|
    requires end == WindowEnd(c, text, start)
    requires !BlankSlice(text, start, end)
    ensures Windows(c, text, start) == [Window(start, end)]
  {
  }

  /** One step of `Windows`: the window at `start`, then the windows from the next start. */
  lemma {:induction false} WindowsNext(c: Chunker, text: string, start: nat, end: nat)
    requires c.Valid() && start < end < |text| && IsBoundary(text[end - 1])
    requires end == WindowEnd(c, text, start)
    requires !BlankSlice(text, start, end)
    ensures Windows(c, text, start) == [Window(start, end)] + Windows(c, text, NextStart(c, text, start, end))
  {
    var rest := Windows(c, text, NextStart(c, text, start, end));
    assert Windows(c, text, start) == [Window(start, end)] + rest;
  }

  /** The windows already visited grow by one as the windows still to come shrink by one. */
  lemma {:induction false} AppendStep<T>(visited: seq<T>, w: T, current: seq<T>, all: seq<T>, rest: seq<T>)
    requires visited + current == all && current == [w] + rest
    ensures (visited + [w]) + rest == all
  {
    assert (visited + [w]) + rest == visited + ([w] + rest);
  }

  /** The slice texts of one more window. */
  lemma {:induction false} PiecesSnoc(text: string, ws: seq<Window>, w: Window)
    requires Inside(text, ws) && w.start <= w.end <= |text|
    ensures Inside(text, ws + [w])
    ensures Pieces(text, ws + [w]) == Pieces(text, ws) + [Strip(text[w.start..w.end])]
  {
  }

  /** A blank slice at the cursor means every window has been visited. */
  lemma {:induction false} CollectStop(c: Chunker, text: string, visited: seq<Window>, start: nat, end: nat, all: seq<Window>)
    requires c.Valid() && start < |text| && end == WindowEnd(c, text, start)
    requires visited + Windows(c, text, start) == all
    requires Strip(text[start..end]) == []
    ensures visited == all
  {
    BlankSliceStrip(text, start, end);
    WindowsBlank(c, text, start, end);
    assert visited + [] == visited;
  }

  /** Merging the trimmed slice of one more window into the chunks gives the chunks of one more window. */
  lemma {:induction false} CollectPiece(minLength: nat, text: string, visited: seq<Window>, w: Window)
    requires Inside(text, visited) && w.start <= w.end <= |text|
    ensures Inside(text, visited + [w])
    ensures MergeInto(minLength, Coalesce(minLength, Pieces(text, visited)), Strip(text[w.start..w.end])) ==
      Coalesce(minLength, Pieces(text, visited + [w]))
  {
    PiecesSnoc(text, visited, w);
    var ps := Pieces(text, visited);
    assert (ps + [Strip(text[w.start..w.end])])[..|ps|] == ps;
  }

  /** A window that is not blank and reaches the text end is the last one to visit. */
  lemma {:induction false} CollectLast(c: Chunker, text: string, visited: seq<Window>, start: nat, end: nat, all: seq<Window>)
    requires c.Valid() && start < |text| && end == WindowEnd(c, text, start) && end >= |text|
    requires visited + Windows(c, text, start) == all
    requires Strip(text[start..end]) != []
    ensures visited + [Window(start, end)] == all
  {
    BlankSliceStrip(text, start, end);
    WindowsLast(c, text, start, end);
  }

  /** After a window that is not blank and stops short of the text end, the windows to come start at the next start. */
  lemma {:induction false} CollectNext(c: Chunker, text: string, visited: seq<Window>, start: nat, end: nat, all: seq<Window>)
    requires c.Valid() && start < |text| && end == WindowEnd(c, text, start) && end < |text|
    requires visited + Windows(c, text, start) == all
    requires Strip(text[start..end]) != []
    ensures start < end && IsBoundary(text[end - 1])
    ensures visited + [Window(start, end)] + Windows(c, text, NextStart(c, text, start, end)) == all
  {
    BlankSliceStrip(text, start, end);
    WindowsNext(c, text, start, end);
    AppendStep(visited, Window(start, end), Windows(c, text, start), all,
      Windows(c, text, NextStart(c, text, start, end)));
  }

  /**
   * The cursor loop of `chunk_text` over the normalised text: cut the window
   * at the cursor, stop at a blank slice, merge a short slice into the last
   * chunk, stop once the window reaches the end, otherwise move the cursor to
   * the next start.
   */
  method CollectChunks(c: Chunker, text: string) returns (chunks: seq<string>)
    requires c.Valid()
    ensures chunks == Coalesce(c.minChunkLength, WindowPieces(c, text))
  {
    var textLen := |text|;
    ghost var all := Windows(c, text, 0);
    chunks := [];
    var start := 0;
    ghost var visited: seq<Window> := [];
    while start < textLen
      invariant Inside(text, visited)
      invariant visited + Windows(c, text, start) == all
      invariant chunks == Coalesce(c.minChunkLength, Pieces(text, visited))
      decreases textLen - start
    {
      var initialEnd := Min(textLen, start + c.chunkSize);
      var end := ExtendEnd(text, initialEnd);
      assert end == WindowEnd(c, text, start);
      var piece := Strip(text[start..end]);
      if piece == [] {
        CollectStop(c, text, visited, start, end, all);
        break;
      }
      CollectPiece(c.minChunkLength, text, visited, Window(start, end));
      if |piece| < c.minChunkLength && chunks != [] {
        chunks := chunks[..|chunks| - 1] + [Strip(chunks[|chunks| - 1] + " " + piece)];
      } else {
        chunks := chunks + [piece];
      }
      if end >= textLen {
        CollectLast(c, text, visited, start, end, all);
        visited := visited + [Window(start, end)];
        break;
      }
      CollectNext(c, text, visited, start, end, all);
      visited := visited + [Window(start, end)];
      start := AdvanceCursor(c, text, start, end);
    }
    assert visited == all;
  }

  /** The numbering loop of `chunk_text`: one record per chunk, in order. */
  method NumberChunks(chunks: seq<string>, metadata: Record) returns (result: seq<Record>)
    ensures result == Records(chunks, metadata)
  {
    var total := |chunks|;
    ghost var records := Records(chunks, metadata);
    result := [];
    for i := 0 to total
      invariant result == records[..i]
    {
      assert records[..i + 1] == records[..i] + [records[i]];
      result := result + [ChunkRecord(chunks[i], i, total, metadata)];
    }
    assert records[..total] == records;
  }

  /** `chunk_text`: normalise, give up on empty text, collect the chunks, number them. */
  method ChunkText(c: Chunker, text: string, metadata: Record) returns (result: seq<Record>)
    requires c.Valid()
    ensures result == ChunkRecords(c, text, metadata)
  {
    var normalized := Normalize(text);
    if |normalized| == 0 {
      return [];
    }
    var chunks := CollectChunks(c, normalized);
    result := NumberChunks(chunks, metadata);
  }

  // ---------------------------------------------------------------------------
  // Properties of chunk_text
  // ---------------------------------------------------------------------------

  /**
   * The chunk texts are non-empty and trimmed; there are none exactly when
   * the input is blank; the first window's slice heads the first chunk;
   * joined with spaces they equal the window slices joined with spaces; and
   * there is one chunk per window less one per short slice after the first.
   */
  lemma {:induction false} ChunkTextsFacts(c: Chunker, text: string)
    requires c.Valid()
    ensures var ps := WindowPieces(c, Normalize(text));
      var cs := ChunkTexts(c, text);
      Fragments(cs) &&
      (cs == [] <==> AllSpace(text)) &&
      (cs != [] ==> StartsWith(cs[0], ps[0])) &&
      Join(cs, " ") == Join(ps, " ") &&
      (cs != [] ==> |cs| + CountShort(c.minChunkLength, ps[1..]) == |ps|)
  {
    var normalized := Normalize(text);
    var ws := Windows(c, normalized, 0);
    WindowsNotBlank(c, normalized, 0);
    var ps := Pieces(normalized, ws);
    if normalized != [] {
      WindowsCoverText(c, normalized);
    }
    PiecesFragments(normalized, ws);
    CoalesceFragments(c.minChunkLength, ps);
    CoalesceJoin(c.minChunkLength, ps);
    if ps != [] {
      CoalesceCount(c.minChunkLength, ps);
    }
  }

  /** With `minChunkLength` 0 every window slice is a chunk of its own. */
  lemma {:induction false} NoMinimumNoMerge(c: Chunker, text: string)
    requires c.Valid() && c.minChunkLength == 0
    ensures var normalized := Normalize(text);
      ChunkTexts(c, text) == WindowPieces(c, normalized)
  {
    var normalized := Normalize(text);
    CoalesceNothingShort(0, WindowPieces(c, normalized));
  }

  /** Blank input gives no chunks at all. */
  lemma {:induction false} BlankTextNoChunks(c: Chunker, text: string, metadata: Record)
    requires c.Valid() && AllSpace(text)
    ensures ChunkRecords(c, text, metadata) == []
  {
    ChunkTextsFacts(c, text);
  }

  /** Text that fits in one chunk and is not blank is the only window. */
  lemma {:induction false} ShortTextOneWindow(c: Chunker, text: string)
    requires c.Valid() && 0 < |text| <= c.chunkSize && Strip(text) != []
    ensures Windows(c, text, 0) == [Window(0, |text|)]
  {
    assert text[0..|text|] == text;
    assert Min(|text|, c.chunkSize) == |text|;
    BlankSliceStrip(text, 0, |text|);
    WindowsLast(c, text, 0, |text|);
  }

  /** A lone window over the whole stripped text gives the text itself as the one piece. */
  lemma {:induction false} ShortTextOnePiece(c: Chunker, text: string)
    requires c.Valid() && 0 < |text| <= c.chunkSize && Stripped(text)
    ensures WindowPieces(c, text) == [text]
  {
    StripFacts(text);
    ShortTextOneWindow(c, text);
    assert text[0..|text|] == text;
  }

  /** One piece is never merged. */
  lemma {:induction false} CoalesceSingle(minLength: nat, p: string)
    ensures Coalesce(minLength, [p]) == [p]
  {
    assert [p][..0] == [];
  }

  /** Normalised text that fits in one chunk comes back as exactly one chunk holding all of it. */
  lemma {:induction false} ShortTextOneChunk(c: Chunker, text: string, metadata: Record)
    requires c.Valid() && !AllSpace(text) && |Normalize(text)| <= c.chunkSize
    ensures var rs := ChunkRecords(c, text, metadata);
      |rs| == 1 && rs[0] == ChunkRecord(Normalize(text), 0, 1, metadata)
  {
    var normalized := Normalize(text);
    ShortTextOnePiece(c, normalized);
    CoalesceSingle(c.minChunkLength, normalized);
  }

  /**
   * Every record carries its position as `chunk_id`, the chunk count as
   * `total_chunks` and its chunk text as `text`, unless the metadata names
   * the same key, and every metadata field verbatim.
   */
  lemma {:induction false} RecordsNumbered(c: Chunker, text: string, metadata: Record)
    requires c.Valid()
    ensures var rs := ChunkRecords(c, text, metadata);
      var cs := ChunkTexts(c, text);
      |rs| == |cs| &&
      forall i :: 0 <= i < |rs| ==>
        rs[i].Keys == {"text", "chunk_id", "total_chunks"} + metadata.Keys &&
        (forall k :: k in metadata ==> rs[i][k] == metadata[k]) &&
        ("text" !in metadata ==> rs[i]["text"] == Str(cs[i])) &&
        ("chunk_id" !in metadata ==> rs[i]["chunk_id"] == Int(i)) &&
        ("total_chunks" !in metadata ==> rs[i]["total_chunks"] == Int(|rs|))
  {
  }
}

=== FILE: TranscriptProcessor.dfy ===
/**
 * The transcript processing step (steps/transcript_processor.py): one chunker
 * built from the chunk settings, then every video with a transcript chunked
 * with its metadata, all chunk records concatenated in video order. The
 * settings are a parameter instead of a configuration file.
 */
module TranscriptProcessor {
  import opened Wrappers
  import opened TextChunker
  import YouTubeHelper

  /** The `text_processing` settings; `min_chunk_length` may be absent. */
  datatype ChunkSettings = ChunkSettings(chunkSize: int, chunkOverlap: int, minChunkLength: Option<int>)

  /** A video as the fetching step hands it over. */
  datatype Video = Video(
    videoId: string,
    title: string,
    channelId: Option<string>,
    channelTitle: Option<string>,
    publishedAt: Option<string>,
    transcript: Option<string>)

  /** The chunker built from the settings, with a minimum length of 0 when none is given. */
  function BuildChunker(settings: ChunkSettings): (r: Result<Chunker, ConfigError>)
    ensures r.Failure? <==> settings.chunkSize <= 0
    ensures r.Success? ==> r.value.Valid()
    ensures r.Success? ==> r.value.chunkSize == settings.chunkSize
    ensures r.Success? && settings.chunkOverlap < 0 ==> r.value.chunkOverlap == 0
    ensures r.Success? && 0 <= settings.chunkOverlap < settings.chunkSize ==>
      r.value.chunkOverlap == settings.chunkOverlap
    ensures r.Success? && settings.chunkSize <= settings.chunkOverlap ==>
      r.value.chunkOverlap == settings.chunkSize - 1
    ensures r.Success? && settings.minChunkLength.None? ==> r.value.minChunkLength == 0
    ensures r.Success? && settings.minChunkLength.Some? ==>
      r.value.minChunkLength == (if settings.minChunkLength.value < 0 then 0 else settings.minChunkLength.value)
  {
    New(settings.chunkSize, settings.chunkOverlap,
        if settings.minChunkLength.Some? then settings.minChunkLength.value else 0)
  }

  function OptionalText(o: Option<string>): Value
  {
    if o.Some? then Str(o.value) else Null
  }

  /** The metadata dictionary of a video that every one of its chunks carries. */
  function VideoRecord(v: Video): Record
  {
    map[
      "video_id" := Str(v.videoId),
      "video_title" := Str(v.title),
      "channel_id" := OptionalText(v.channelId),
      "channel_title" := OptionalText(v.channelTitle),
      "published_at" := OptionalText(v.publishedAt),
      "video_url" := Str(YouTubeHelper.BuildVideoUrl(v.videoId))
    ]
  }

  /** A video is chunked only when its transcript is present and not empty. */
  predicate HasTranscript(v: Video)
  {
    v.transcript.Some? && v.transcript.value != []
  }

  /** The chunk records of one video. */
  function VideoChunks(c: Chunker, v: Video): seq<Record>
    requires c.Valid()
  {
    if HasTranscript(v) then ChunkRecords(c, v.transcript.value, VideoRecord(v)) else []
  }

  /** The blocks one after the other. */
  function Concat<T>(blocks: seq<seq<T>>): seq<T>
  {
    if blocks == [] then [] else Concat(blocks[..|blocks| - 1]) + blocks[|blocks| - 1]
  }

  lemma {:induction false} ConcatAppend<T>(a: seq<seq<T>>, b: seq<seq<T>>)
    ensures Concat(a + b) == Concat(a) + Concat(b)
    decreases |b|
  {
    if b == [] {
      assert a + b == a;
    } else {
      var init := b[..|b| - 1];
      ConcatAppend(a, init);
      assert (a + b)[..|a + b| - 1] == a + init;
    }
  }

  /** The chunk records of each video, video by video. */
  function Blocks(c: Chunker, videos: seq<Video>): (r: seq<seq<Record>>)
    requires c.Valid()
    ensures |r| == |videos|
    ensures forall i :: 0 <= i < |videos| ==> r[i] == VideoChunks(c, videos[i])
  {
    seq(|videos|, i requires 0 <= i < |videos| => VideoChunks(c, videos[i]))
  }

  /** The chunk records of all videos, in order. */
  function AllChunks(c: Chunker, videos: seq<Video>): seq<Record>
    requires c.Valid()
  {
    Concat(Blocks(c, videos))
  }

  /** The sum over the videos with a transcript of the number of chunk texts of that transcript. */
  function ChunkCount(c: Chunker, videos: seq<Video>): nat
    requires c.Valid()
  {
    if videos == [] then 0
    else
      var v := videos[0];
      (if HasTranscript(v) then |ChunkTexts(c, v.transcript.value)| else 0) + ChunkCount(c, videos[1..])
  }

  /** What `process_transcripts` returns, or the error building the chunker raises. */
  function Processed(settings: ChunkSettings, videos: seq<Video>): (r: Result<seq<Record>, ConfigError>)
    ensures r.Failure? <==> settings.chunkSize <= 0
    ensures r.Success? ==> r.value == AllChunks(BuildChunker(settings).value, videos)
  {
    var built := BuildChunker(settings);
    if built.Failure? then Failure(built.error) else Success(AllChunks(built.value, videos))
  }

  /** `process_transcripts`: build one chunker, then chunk every video that has a transcript. */
  method ProcessTranscripts(settings: ChunkSettings, videos: seq<Video>) returns (r: Result<seq<Record>, ConfigError>)
    ensures r == Processed(settings, videos)
  {
    var built := BuildChunker(settings);
    if built.Failure? {
      return Failure(built.error);
    }
    var chunker := built.value;
    var allChunks: seq<Record> := [];
    for i := 0 to |videos|
      invariant allChunks == AllChunks(chunker, videos[..i])
    {
      var video := videos[i];
      AllChunksPrefix(chunker, videos, i);
      if video.transcript.None? || video.transcript.value == [] {
        assert VideoChunks(chunker, video) == [];
        continue;
      }
      var metadata := VideoRecord(video);
      var chunks := ChunkText(chunker, video.transcript.value, metadata);
      assert chunks == VideoChunks(chunker, video);
      allChunks := allChunks + chunks;
    }
    assert videos[..|videos|] == videos;
    return Success(allChunks);
  }

  /** The records of one more video of the list follow those of the videos before it. */
  lemma {:induction false} AllChunksPrefix(c: Chunker, videos: seq<Video>, i: nat)
    requires c.Valid() && i < |videos|
    ensures AllChunks(c, videos[..i + 1]) == AllChunks(c, videos[..i]) + VideoChunks(c, videos[i])
  {
    assert videos[..i + 1] == videos[..i] + [videos[i]];
    AllChunksSnoc(c, videos[..i], videos[i]);
  }

  /** The records of a list of videos are those of its two parts, one after the other. */
  lemma {:induction false} AllChunksAppend(c: Chunker, a: seq<Video>, b: seq<Video>)
    requires c.Valid()
    ensures AllChunks(c, a + b) == AllChunks(c, a) + AllChunks(c, b)
  {
    var ab, ba, bb := Blocks(c, a + b), Blocks(c, a), Blocks(c, b);
    forall i | 0 <= i < |ab| ensures ab[i] == (ba + bb)[i] {
      if i < |a| {
        assert (a + b)[i] == a[i];
      } else {
        assert (a + b)[i] == b[i - |a|];
      }
    }
    assert ab == ba + bb;
    ConcatAppend(ba, bb);
  }

  /** One more video adds its own records at the end. */
  lemma {:induction false} AllChunksSnoc(c: Chunker, videos: seq<Video>, v: Video)
    requires c.Valid()
    ensures AllChunks(c, videos + [v]) == AllChunks(c, videos) + VideoChunks(c, v)
  {
    var bs := Blocks(c, videos + [v]);
    assert bs[..|videos|] == Blocks(c, videos);
  }

  /** A video without a transcript adds no records. */
  lemma {:induction false} NoTranscriptNoChunks(c: Chunker, videos: seq<Video>, v: Video)
    requires c.Valid() && !HasTranscript(v)
    ensures AllChunks(c, videos + [v]) == AllChunks(c, videos)
  {
    AllChunksSnoc(c, videos, v);
  }

  /** There are as many records as chunk texts over all the videos with a transcript. */
  lemma {:induction false} AllChunksLength(c: Chunker, videos: seq<Video>)
    requires c.Valid()
    ensures |AllChunks(c, videos)| == ChunkCount(c, videos)
  {
    if videos != [] {
      var v := videos[0];
      var rest := videos[1..];
      AllChunksLength(c, rest);
      AllChunksAppend(c, [v], rest);
      assert [v] + rest == videos;
      assert AllChunks(c, [v]) == VideoChunks(c, v) by {
        AllChunksSnoc(c, [], v);
        assert [] + [v] == [v];
      }
      if HasTranscript(v) {
        RecordsNumbered(c, v.transcript.value, VideoRecord(v));
      }
    }
  }

  /**
   * The records of a video with a transcript are numbered from 0 with the
   * count of that video's chunks, carry the chunk texts in order and every
   * field of the video's metadata dictionary, none of which overrides them.
   */
  lemma {:induction false} VideoChunksCarryMetadata(c: Chunker, v: Video)
    requires c.Valid() && HasTranscript(v)
    ensures var rs := VideoChunks(c, v);
      var cs := ChunkTexts(c, v.transcript.value);
      var m := VideoRecord(v);
      |rs| == |cs| &&
      forall j :: 0 <= j < |rs| ==>
        rs[j]["chunk_id"] == Int(j) && rs[j]["total_chunks"] == Int(|rs|) && rs[j]["text"] == Str(cs[j]) &&
        forall k :: k in m ==> rs[j][k] == m[k]
  {
    var m := VideoRecord(v);
    assert m.Keys == {"video_id", "video_title", "channel_id", "channel_title", "published_at", "video_url"};
    assert "text" !in m && "chunk_id" !in m && "total_chunks" !in m;
    RecordsNumbered(c, v.transcript.value, m);
  }

  /**
   * Within the whole output the records of video `i` form one block, right
   * after the records of the videos before it, so numbering restarts at 0
   * for every video.
   */
  lemma {:induction false} VideoBlock(c: Chunker, videos: seq<Video>, i: nat)
    requires c.Valid() && i < |videos|
    ensures AllChunks(c, videos) ==
      AllChunks(c, videos[..i]) + VideoChunks(c, videos[i]) + AllChunks(c, videos[i + 1..])
  {
    assert videos == videos[..i] + [videos[i]] + videos[i + 1..];
    AllChunksAppend(c, videos[..i] + [videos[i]], videos[i + 1..]);
    AllChunksSnoc(c, videos[..i], videos[i]);
  }
}

=== FILE: Wrappers.dfy ===
/** Option and Result values used for Python's `None` returns and raised errors. */
module Wrappers {

  datatype Option<+T> = None | Some(value: T)

  datatype Result<+R, +E> = Success(value: R) | Failure(error: E)
}

=== FILE: YouTubeHelper.dfy ===
/**
 * The decision logic of the YouTube helper (utils/youtube_helper.py): the
 * canonical watch URL, video-id extraction from an already split URL, the
 * joining of transcript entries, the metadata fallback order and the tiered
 * transcript lookup. Every network source (pytube, the oEmbed endpoint, the
 * transcript API) is an input: the outcome it gave for the video at hand.
 */
module YouTubeHelper {
  import opened Wrappers
  import opened Strings

  // ---------------------------------------------------------------------------
  // The helper object
  // ---------------------------------------------------------------------------

  const DefaultLanguages: seq<string> := ["tr", "en"]

  /** A constructed helper; its language list never changes after construction. */
  datatype Helper = Helper(preferredLanguages: seq<string>)

  /** `YouTubeHelper(preferred_languages)`: a missing or empty list means Turkish, then English. */
  function NewHelper(languages: Option<seq<string>>): (h: Helper)
    ensures languages.None? ==> h.preferredLanguages == DefaultLanguages
    ensures languages.Some? && languages.value == [] ==> h.preferredLanguages == DefaultLanguages
    ensures languages.Some? && languages.value != [] ==> h.preferredLanguages == languages.value
    ensures h.preferredLanguages != []
  {
    match languages
    case Some(ls) => if ls != [] then Helper(ls) else Helper(DefaultLanguages)
    case None => Helper(DefaultLanguages)
  }

  // ---------------------------------------------------------------------------
  // URLs and video ids
  // ---------------------------------------------------------------------------

  const WatchPrefix: string := "https://www.youtube.com/watch?v="

  /** `build_video_url`: the canonical watch URL of a video. */
  function BuildVideoUrl(videoId: string): (url: string)
    ensures StartsWith(url, WatchPrefix) && url[|WatchPrefix|..] == videoId
  {
    WatchPrefix + videoId
  }

  /** The canonical URL determines the video id: different ids give different URLs. */
  lemma {:induction false} BuildVideoUrlInjective(a: string, b: string)
    requires BuildVideoUrl(a) == BuildVideoUrl(b)
    ensures a == b
  {
    assert a == BuildVideoUrl(a)[|WatchPrefix|..];
  }

  /**
   * A URL as `urlparse` and `parse_qs` split it: the host name (if any), the
   * path and the query parameters, each with its list of values.
   */
  datatype Url = Url(hostname: Option<string>, path: string, query: map<string, seq<string>>)

  /** A character of YouTube's video id alphabet: ASCII letters, digits, '-' and '_'. */
  predicate IdChar(c: char)
  {
    'a' <= c <= 'z' || 'A' <= c <= 'Z' || '0' <= c <= '9' || c == '-' || c == '_'
  }

  /**
   * A non-empty id over that alphabet. Such an id needs no quoting in a query
   * string, so `urlparse` and `parse_qs` give it back as the `v` value.
   */
  predicate ValidVideoId(videoId: string)
  {
    videoId != [] && forall i :: 0 <= i < |videoId| ==> IdChar(videoId[i])
  }

  /** The split form of `BuildVideoUrl(videoId)` for a valid id. */
  function WatchUrl(videoId: string): Url
    requires ValidVideoId(videoId)
  {
    Url(Some("www.youtube.com"), "/watch", map["v" := [videoId]])
  }

  /** The host lower-cased, then stripped of every leading 'w' and '.' character. */
  function NormalizedHost(hostname: Option<string>): (host: string)
    ensures host == [] || host[0] !in {'w', '.'}
  {
    var lowered := Lower(if hostname.Some? then hostname.value else "");
    LStripCharsFacts(lowered, {'w', '.'});
    LStripChars(lowered, {'w', '.'})
  }

  /** The path segments between slashes that are not empty, in order. */
  function Segments(path: string): (segs: seq<string>)
  {
    NonEmpty(Split(path, '/'))
  }

  /** The non-empty parts, in order. */
  function NonEmpty(parts: seq<string>): (r: seq<string>)
    ensures |r| <= |parts|
    ensures |parts| == 1 ==> r == if parts[0] == [] then [] else parts
    ensures forall k :: 0 <= k < |r| ==> r[k] != [] && r[k] in parts
    ensures forall k :: 0 <= k < |parts| && parts[k] != [] ==> parts[k] in r
  {
    if parts == [] then []
    else
      var init := parts[..|parts| - 1];
      var last := parts[|parts| - 1];
      var r := NonEmpty(init);
      assert forall k :: 0 <= k < |init| ==> init[k] == parts[k];
      if last == [] then r else r + [last]
  }

  /** Filtering keeps the order: the kept parts of `a + b` are those of `a`, then those of `b`. */
  lemma {:induction false} NonEmptyAppend(a: seq<string>, b: seq<string>)
    ensures NonEmpty(a + b) == NonEmpty(a) + NonEmpty(b)
    decreases |b|
  {
    if b == [] {
      assert a + b == a;
    } else {
      var init, last := b[..|b| - 1], b[|b| - 1];
      var kept := if last == [] then [] else [last];
      NonEmptyAppend(a, init);
      assert NonEmpty(a + b) == NonEmpty(a + init) + kept by {
        assert (a + b)[..|a + b| - 1] == a + init;
      }
      assert NonEmpty(b) == NonEmpty(init) + kept;
      ConcatAssoc(NonEmpty(a), NonEmpty(init), kept);
    }
  }

  /** Every segment is non-empty and holds no '/'. */
  lemma {:induction false} SegmentsFacts(path: string)
    ensures forall k :: 0 <= k < |Segments(path)| ==> Segments(path)[k] != [] && '/' !in Segments(path)[k]
  {
    var parts := Split(path, '/');
    var segs := NonEmpty(parts);
    forall k | 0 <= k < |segs| ensures segs[k] != [] && '/' !in segs[k] {
      var j :| 0 <= j < |parts| && parts[j] == segs[k];
    }
  }

  /** Slashes at the end of a path add no segment. */
  lemma {:induction false} SegmentsTrailingSlashes(path: string, slashes: string)
    requires forall i :: 0 <= i < |slashes| ==> slashes[i] == '/'
    ensures Segments(path + slashes) == Segments(path)
    decreases |slashes|
  {
    if slashes != [] {
      var shorter := slashes[..|slashes| - 1];
      SegmentsTrailingSlashes(path, shorter);
      SegmentsTrailingSlash(path, slashes);
    } else {
      assert path + slashes == path;
    }
  }

  /** A last slash adds an empty part, which the filter drops. */
  lemma {:induction false} SegmentsTrailingSlash(path: string, slashes: string)
    requires slashes != [] && slashes[|slashes| - 1] == '/'
    ensures Segments(path + slashes) == Segments(path + slashes[..|slashes| - 1])
  {
    var a := path + slashes[..|slashes| - 1];
    var parts := Split(a, '/');
    assert Split(path + slashes, '/') == parts + [[]] by {
      assert path + slashes == a + ['/'] + [];
      SplitSepThen(a, [], '/');
    }
    assert (parts + [[]])[..|parts|] == parts;
  }

  const WatchMarker: string := "watchv="

  /**
   * `extract_video_id`: for `youtu.be` the path without leading slashes; for
   * `youtube.com` and `m.youtube.com` the first `v` query value, otherwise
   * the last path segment with a leading `watchv=` dropped; `None` for any
   * other host or when there is nothing to return.
   */
  function ExtractVideoId(url: Url): (r: Option<string>)
    ensures r.Some? ==> NormalizedHost(url.hostname) in {"youtu.be", "youtube.com", "m.youtube.com"}
    ensures NormalizedHost(url.hostname) == "youtu.be" ==> r.None? || r.value != []
  {
    var host := NormalizedHost(url.hostname);
    if host == "youtu.be" then
      var videoId := LStripChars(url.path, {'/'});
      if videoId == [] then None else Some(videoId)
    else if host == "youtube.com" || host == "m.youtube.com" then
      if "v" in url.query && url.query["v"] != [] then Some(url.query["v"][0])
      else
        var parts := Segments(url.path);
        if parts == [] then None
        else
          var lastPart := parts[|parts| - 1];
          if StartsWith(lastPart, WatchMarker) then Some(lastPart[|WatchMarker|..])
          else Some(lastPart)
    else None
  }

  /** The id of a canonical watch URL comes back out of it. */
  lemma {:induction false} WatchUrlRoundTrip(videoId: string)
    requires ValidVideoId(videoId)
    ensures ExtractVideoId(WatchUrl(videoId)) == Some(videoId)
  {
    HostAfterPrefix("www.youtube.com", "www.", "youtube.com");
  }

  /**
   * A lower-case host whose leading 'w'/'.' characters are `prefix`
   * normalises to the rest: any such run is dropped, not only "www.", so
   * "wwwyoutube.com" and "w.youtu.be" count as YouTube hosts.
   */
  lemma {:induction false} HostAfterPrefix(host: string, prefix: string, rest: string)
    requires host == prefix + rest
    requires forall i :: 0 <= i < |host| ==> !('A' <= host[i] <= 'Z')
    requires forall i :: 0 <= i < |prefix| ==> prefix[i] in {'w', '.'}
    requires rest == [] || rest[0] !in {'w', '.'}
    ensures NormalizedHost(Some(host)) == rest
  {
    assert Lower(host) == host;
    LStripPrefix(prefix, rest, {'w', '.'});
  }

  /** Letter case in the host is ignored. */
  lemma {:induction false} HostCaseIgnored(host: string)
    ensures NormalizedHost(Some(host)) == NormalizedHost(Some(Lower(host)))
  {
    assert Lower(Lower(host)) == Lower(host);
  }

  /** A short link gives its path minus the leading slashes, and `None` when only slashes remain. */
  lemma {:induction false} ShortLinkId(hostname: Option<string>, path: string, query: map<string, seq<string>>)
    requires NormalizedHost(hostname) == "youtu.be"
    ensures var r := ExtractVideoId(Url(hostname, path, query));
      (r.None? <==> forall i :: 0 <= i < |path| ==> path[i] == '/') &&
      (r.Some? ==> path == seq(|path| - |r.value|, _ => '/') + r.value && r.value[0] != '/')
  {
    LStripCharsFacts(path, {'/'});
    var rest := LStripChars(path, {'/'});
    var slashes := path[..|path| - |rest|];
    assert path == slashes + rest;
    assert slashes == seq(|path| - |rest|, _ => '/');
    if rest != [] {
      assert path[|path| - |rest|] == rest[0];
    }
  }

  /** On a `youtube.com` host a non-empty `v` query value wins over the path. */
  lemma {:induction false} QueryValueWins(hostname: Option<string>, path: string, query: map<string, seq<string>>)
    requires NormalizedHost(hostname) in {"youtube.com", "m.youtube.com"}
    requires "v" in query && query["v"] != []
    ensures ExtractVideoId(Url(hostname, path, query)) == Some(query["v"][0])
  {
  }

  /**
   * Without a `v` value the last non-empty path segment is the id
   * (`/embed/<id>`, `/shorts/<id>`, `/shorts/<id>/`), less a leading `watchv=`;
   * slashes after it are ignored.
   */
  lemma {:induction false} LastSegmentId(hostname: Option<string>, dir: string, segment: string, slashes: string,
                                         query: map<string, seq<string>>)
    requires NormalizedHost(hostname) in {"youtube.com", "m.youtube.com"}
    requires "v" !in query || query["v"] == []
    requires segment != [] && '/' !in segment
    requires forall i :: 0 <= i < |slashes| ==> slashes[i] == '/'
    ensures var r := ExtractVideoId(Url(hostname, dir + "/" + segment + slashes, query));
      r == Some(if StartsWith(segment, WatchMarker) then segment[|WatchMarker|..] else segment)
  {
    LastSegment(dir, segment, slashes);
  }

  /** The last segment of a path that ends in a segment and then slashes only. */
  lemma {:induction false} LastSegment(dir: string, segment: string, slashes: string)
    requires segment != [] && '/' !in segment
    requires forall i :: 0 <= i < |slashes| ==> slashes[i] == '/'
    ensures var segs := Segments(dir + "/" + segment + slashes);
      segs != [] && segs[|segs| - 1] == segment
  {
    SegmentsTrailingSlashes(dir + "/" + segment, slashes);
    SplitSepThen(dir, segment, '/');
    var parts := Split(dir, '/');
    assert Split(dir + "/" + segment, '/') == parts + [segment];
    assert (parts + [segment])[..|parts|] == parts;
  }

  /** On a `youtube.com` host with no `v` value, a path of slashes only gives `None`. */
  lemma {:induction false} NoSegmentNoId(hostname: Option<string>, path: string, query: map<string, seq<string>>)
    requires NormalizedHost(hostname) in {"youtube.com", "m.youtube.com"}
    requires "v" !in query || query["v"] == []
    requires forall i :: 0 <= i < |path| ==> path[i] == '/'
    ensures ExtractVideoId(Url(hostname, path, query)) == None
  {
    SplitOnlySeparators(path, '/');
  }

  /** Any host other than the three YouTube ones gives `None`. */
  lemma {:induction false} OtherHostNoId(url: Url)
    requires NormalizedHost(url.hostname) !in {"youtu.be", "youtube.com", "m.youtube.com"}
    ensures ExtractVideoId(url) == None
  {
  }

  // ---------------------------------------------------------------------------
  // Transcript entries
  // ---------------------------------------------------------------------------

  /** A transcript entry: an object with a `text` attribute, a dictionary, or anything else. */
  datatype Entry = TextAttribute(text: Option<string>) | Dict(fields: map<string, Option<string>>) | Other

  /** The text of an entry: its attribute, its `"text"` key, or nothing. */
  function EntryText(e: Entry): Option<string>
  {
    match e
    case TextAttribute(t) => t
    case Dict(fields) => if "text" in fields then fields["text"] else None
    case Other => None
  }

  /** The trimmed text an entry contributes, unless it has none or only whitespace. */
  function Fragment(e: Entry): Option<string>
  {
    match EntryText(e)
    case None => None
    case Some(t) => if Strip(t) == [] then None else Some(Strip(t))
  }

  /** The fragments of the entries, in order. */
  function Cleaned(entries: seq<Entry>): (parts: seq<string>)
  {
    if entries == [] then []
    else
      var init := Cleaned(entries[..|entries| - 1]);
      match Fragment(entries[|entries| - 1])
      case None => init
      case Some(f) => init + [f]
  }

  /** What `_join_transcript` returns: the fragments joined by single spaces. */
  function JoinedText(entries: seq<Entry>): string
  {
    Join(Cleaned(entries), " ")
  }

  /** Every fragment is a non-empty trimmed string, and there are none exactly when no entry has text. */
  lemma {:induction false} CleanedFragments(entries: seq<Entry>)
    ensures Fragments(Cleaned(entries))
    ensures Cleaned(entries) == [] <==> forall i :: 0 <= i < |entries| ==> Fragment(entries[i]).None?
  {
    if entries != [] {
      var init := entries[..|entries| - 1];
      var last := entries[|entries| - 1];
      CleanedFragments(init);
      assert forall i :: 0 <= i < |init| ==> init[i] == entries[i];
      match EntryText(last)
      case None =>
      case Some(t) => StripFacts(t);
    }
  }

  /**
   * The joined transcript has no whitespace at either end and is empty
   * exactly when no entry has text that is not all whitespace.
   */
  lemma {:induction false} JoinedTextFacts(entries: seq<Entry>)
    ensures Stripped(JoinedText(entries))
    ensures JoinedText(entries) == [] <==> forall i :: 0 <= i < |entries| ==> Fragment(entries[i]).None?
  {
    CleanedFragments(entries);
    JoinFragments(Cleaned(entries));
  }

  /** `_join_transcript`: collect the trimmed non-empty texts, then join them with spaces. */
  method JoinTranscript(entries: seq<Entry>) returns (joined: string)
    ensures joined == JoinedText(entries)
  {
    var parts: seq<string> := [];
    for i := 0 to |entries|
      invariant parts == Cleaned(entries[..i])
    {
      assert entries[..i + 1][..i] == entries[..i];
      var text := EntryText(entries[i]);
      if text.None? || text.value == [] {
        continue;
      }
      var cleaned := Strip(text.value);
      if cleaned != [] {
        parts := parts + [cleaned];
      }
    }
    assert entries[..|entries|] == entries;
    joined := Join(parts, " ");
  }

  // ---------------------------------------------------------------------------
  // Video metadata
  // ---------------------------------------------------------------------------

  /** The metadata dictionary of a video. */
  datatype VideoMetadata = VideoMetadata(
    videoId: string,
    title: string,
    description: string,
    publishedAt: Option<string>,
    channelId: Option<string>,
    channelTitle: Option<string>,
    videoUrl: string)

  /** What pytube gave for the canonical URL: its attributes, or an error of any kind. */
  datatype PytubeOutcome =
    | PytubeVideo(title: string, description: Option<string>, publishDate: Option<string>,
                  channelId: Option<string>, author: Option<string>)
    | PytubeFailed

  /** What the oEmbed endpoint gave: a payload with its optional fields, or a failed request. */
  datatype OEmbedOutcome = OEmbedPayload(title: Option<string>, authorName: Option<string>) | OEmbedFailed

  /** `_fallback_metadata`: the id as title, nothing else known, and the canonical URL. */
  function FallbackMetadata(videoId: string): VideoMetadata
  {
    VideoMetadata(videoId, videoId, "", None, None, None, BuildVideoUrl(videoId))
  }

  /** The record `_fetch_oembed_metadata` builds from a payload; the title defaults to the id. */
  function OEmbedMetadata(videoId: string, title: Option<string>, authorName: Option<string>): VideoMetadata
  {
    VideoMetadata(videoId, if title.Some? then title.value else videoId, "", None, None, authorName,
                  BuildVideoUrl(videoId))
  }

  /** The record built from pytube's attributes; a missing description becomes "". */
  function PytubeMetadata(videoId: string, yt: PytubeOutcome): VideoMetadata
    requires yt.PytubeVideo?
  {
    VideoMetadata(videoId, yt.title, if yt.description.Some? then yt.description.value else "",
                  yt.publishDate, yt.channelId, yt.author, BuildVideoUrl(videoId))
  }

  /** An oEmbed payload with neither a title nor an author gives exactly the minimal record. */
  lemma {:induction false} EmptyPayloadIsFallback(videoId: string)
    ensures OEmbedMetadata(videoId, None, None) == FallbackMetadata(videoId)
  {
  }

  /**
   * `get_video_metadata`: `None` when no id can be extracted; otherwise
   * pytube's record, else the oEmbed record, else the minimal record.
   */
  function GetVideoMetadata(url: Url, yt: PytubeOutcome, oembed: OEmbedOutcome): (r: Option<VideoMetadata>)
    ensures r.None? <==> ExtractVideoId(url).None? || ExtractVideoId(url).value == []
    ensures r.Some? ==> r.value.videoId == ExtractVideoId(url).value
    ensures r.Some? ==> r.value.videoUrl == BuildVideoUrl(r.value.videoId)
    ensures r.Some? && yt.PytubeVideo? ==> r.value.title == yt.title && r.value.channelTitle == yt.author
    ensures r.Some? && yt.PytubeVideo? ==>
      r.value.description == (if yt.description.Some? then yt.description.value else "") &&
      r.value.publishedAt == yt.publishDate && r.value.channelId == yt.channelId
    ensures r.Some? && yt.PytubeFailed? && oembed.OEmbedPayload? ==>
      r.value.channelTitle == oembed.authorName && r.value.publishedAt.None?
    ensures r.Some? && yt.PytubeFailed? && oembed.OEmbedPayload? ==>
      r.value.title == (if oembed.title.Some? then oembed.title.value else r.value.videoId) &&
      r.value.description == [] && r.value.channelId.None?
    ensures r.Some? && yt.PytubeFailed? && oembed.OEmbedFailed? ==> r.value == FallbackMetadata(r.value.videoId)
  {
    match ExtractVideoId(url)
    case None => None
    case Some(videoId) =>
      if videoId == [] then None
      else
        match yt
        case PytubeVideo(_, _, _, _, _) => Some(PytubeMetadata(videoId, yt))
        case PytubeFailed =>
          match oembed
          case OEmbedPayload(title, author) => Some(OEmbedMetadata(videoId, title, author))
          case OEmbedFailed => Some(FallbackMetadata(videoId))
  }

  /**
   * The title comes from the first source that answers: pytube's title, else
   * the oEmbed payload's title, else the id itself.
   */
  lemma {:induction false} MetadataTitle(url: Url, yt: PytubeOutcome, oembed: OEmbedOutcome)
    requires GetVideoMetadata(url, yt, oembed).Some?
    ensures var m := GetVideoMetadata(url, yt, oembed).value;
      m.title ==
        if yt.PytubeVideo? then yt.title
        else if oembed.OEmbedPayload? && oembed.title.Some? then oembed.title.value
        else m.videoId
  {
  }

  // ---------------------------------------------------------------------------
  // Transcripts
  // ---------------------------------------------------------------------------

  /** The errors the transcript API raises; `OtherError` stands for any other exception. */
  datatype ApiError = NoTranscriptFound | TranscriptsDisabled | VideoUnavailable | OtherError

  /** The outcome of fetching one transcript: its entries, or the error raised. */
  datatype Fetch = Fetched(entries: seq<Entry>) | FetchFailed(error: ApiError)

  /** A transcript of the listing, with what fetching it gives. */
  datatype Transcript = Transcript(languageCode: string, fetch: Fetch)

  /**
   * A transcript listing: what `find_transcript([lang])` and
   * `find_generated_transcript([lang])` find for a language (absent:
   * `NoTranscriptFound`), and the transcripts in iteration order.
   */
  datatype TranscriptList = TranscriptList(
    found: map<string, Transcript>,
    foundGenerated: map<string, Transcript>,
    transcripts: seq<Transcript>)

  /** The outcome of listing the transcripts of a video. */
  datatype Listing = Listed(list: TranscriptList) | ListFailed(error: ApiError)

  /** How `get_transcript` ends: it returns a text or `None`, or an error escapes it. */
  datatype TranscriptResult = Returned(text: Option<string>) | Raised(error: ApiError)

  /**
   * Fetching a transcript the preferred-language tier found: its text, or
   * `None` to move on after `NoTranscriptFound`, or the error, which escapes.
   */
  function TryFetch(t: Transcript): Option<TranscriptResult>
  {
    match t.fetch
    case Fetched(es) => Some(Returned(Some(JoinedText(es))))
    case FetchFailed(e) => if e == NoTranscriptFound then None else Some(Raised(e))
  }

  /**
   * One language of the preferred tier: the transcript `find_transcript`
   * finds, then the one `find_generated_transcript` finds.
   */
  function LanguageAttempt(language: string, tl: TranscriptList): Option<TranscriptResult>
  {
    var first := if language in tl.found then TryFetch(tl.found[language]) else None;
    if first.Some? then first
    else if language in tl.foundGenerated then TryFetch(tl.foundGenerated[language])
    else None
  }

  /** The preferred tier: the first language, in order, whose attempt ends the lookup. */
  function Preferred(languages: seq<string>, tl: TranscriptList): Option<TranscriptResult>
  {
    if languages == [] then None
    else
      var r := LanguageAttempt(languages[0], tl);
      if r.Some? then r else Preferred(languages[1..], tl)
  }

  /** The last tier: the text of the first listed transcript whose fetch does not raise. */
  function FirstFetchable(ts: seq<Transcript>): Option<string>
  {
    if ts == [] then None
    else match ts[0].fetch
      case Fetched(es) => Some(JoinedText(es))
      case FetchFailed(_) => FirstFetchable(ts[1..])
  }

  /**
   * The outcome of `get_transcript`: the direct fetch, else (only after
   * `NoTranscriptFound`) the listing, its preferred tier and its last tier.
   */
  function Resolve(languages: seq<string>, direct: Fetch, listing: Listing): TranscriptResult
  {
    match direct
    case Fetched(es) => Returned(Some(JoinedText(es)))
    case FetchFailed(e) =>
      if e != NoTranscriptFound then Returned(None)
      else match listing
        case ListFailed(_) => Returned(None)
        case Listed(tl) =>
          var r := Preferred(languages, tl);
          if r.Some? then r.value else Returned(FirstFetchable(tl.transcripts))
  }

  /**
   * `get_transcript`: the direct fetch in the preferred languages; after
   * `NoTranscriptFound` the listing; then each preferred language (the
   * transcript `find_transcript` finds, then the one
   * `find_generated_transcript` finds); then every listed transcript in turn.
   */
  method GetTranscript(h: Helper, direct: Fetch, listing: Listing) returns (r: TranscriptResult)
    ensures r == Resolve(h.preferredLanguages, direct, listing)
  {
    match direct {
      case Fetched(es) =>
        var text := JoinTranscript(es);
        return Returned(Some(text));
      case FetchFailed(e) =>
        if e != NoTranscriptFound {
          return Returned(None);
        }
    }
    if listing.ListFailed? {
      return Returned(None);
    }
    var tl := listing.list;
    var languages := h.preferredLanguages;
    for i := 0 to |languages|
      invariant Preferred(languages, tl) == Preferred(languages[i..], tl)
    {
      var language := languages[i];
      assert languages[i..][1..] == languages[i + 1..];
      if language in tl.found {
        match tl.found[language].fetch {
          case Fetched(es) =>
            var text := JoinTranscript(es);
            return Returned(Some(text));
          case FetchFailed(err) =>
            if err != NoTranscriptFound {
              return Raised(err);
            }
        }
      }
      if language in tl.foundGenerated {
        match tl.foundGenerated[language].fetch {
          case Fetched(es) =>
            var text := JoinTranscript(es);
            return Returned(Some(text));
          case FetchFailed(err) =>
            if err != NoTranscriptFound {
              return Raised(err);
            }
        }
      }
    }
    var ts := tl.transcripts;
    for i := 0 to |ts|
      invariant FirstFetchable(ts) == FirstFetchable(ts[i..])
    {
      assert ts[i..][1..] == ts[i + 1..];
      match ts[i].fetch {
        case Fetched(es) =>
          var text := JoinTranscript(es);
          return Returned(Some(text));
        case FetchFailed(_) =>
      }
    }
    return Returned(None);
  }

  /** The preferred tier ends at the first language whose attempt ends it, and only there. */
  lemma {:induction false} PreferredFirstHit(languages: seq<string>, tl: TranscriptList)
    ensures Preferred(languages, tl).Some? <==>
      exists i :: 0 <= i < |languages| && LanguageAttempt(languages[i], tl).Some?
    ensures forall i :: 0 <= i < |languages| ==>
      (LanguageAttempt(languages[i], tl).Some? &&
       (forall j :: 0 <= j < i ==> LanguageAttempt(languages[j], tl).None?)) ==>
        Preferred(languages, tl) == LanguageAttempt(languages[i], tl)
  {
    if languages != [] {
      var rest := languages[1..];
      PreferredFirstHit(rest, tl);
      forall i | 1 <= i < |languages| ensures languages[i] == rest[i - 1] { }
      if exists i :: 0 <= i < |languages| && LanguageAttempt(languages[i], tl).Some? {
        var i :| 0 <= i < |languages| && LanguageAttempt(languages[i], tl).Some?;
        if i > 0 && LanguageAttempt(languages[0], tl).None? {
          assert LanguageAttempt(rest[i - 1], tl).Some?;
        }
      }
      forall i | 0 <= i < |languages| && LanguageAttempt(languages[i], tl).Some? &&
        (forall j :: 0 <= j < i ==> LanguageAttempt(languages[j], tl).None?)
        ensures Preferred(languages, tl) == LanguageAttempt(languages[i], tl)
      {
        if i > 0 {
          forall j | 0 <= j < i - 1 ensures LanguageAttempt(rest[j], tl).None? {
            assert rest[j] == languages[j + 1];
          }
        }
      }
    }
  }

  /**
   * Within a language the transcript `find_transcript` finds, once it
   * fetches, is taken before the one `find_generated_transcript` finds.
   */
  lemma {:induction false} FoundBeforeGenerated(language: string, tl: TranscriptList)
    requires language in tl.found && tl.found[language].fetch.Fetched?
    ensures LanguageAttempt(language, tl) == Some(Returned(Some(JoinedText(tl.found[language].fetch.entries))))
  {
  }

  /** A language for which neither lookup finds a transcript is passed over. */
  lemma {:induction false} MissingLanguageSkipped(language: string, tl: TranscriptList)
    requires language !in tl.found && language !in tl.foundGenerated
    ensures LanguageAttempt(language, tl) == None
  {
  }

  /**
   * The last tier returns the text of the first listed transcript that
   * fetches, after skipping every failing one, and `None` when all fail.
   */
  lemma {:induction false} FirstFetchableFirst(ts: seq<Transcript>)
    ensures FirstFetchable(ts).None? <==> forall i :: 0 <= i < |ts| ==> ts[i].fetch.FetchFailed?
    ensures FirstFetchable(ts).Some? ==>
      exists i :: 0 <= i < |ts| && ts[i].fetch.Fetched? && FirstFetchable(ts).value == JoinedText(ts[i].fetch.entries) &&
        forall j :: 0 <= j < i ==> ts[j].fetch.FetchFailed?
  {
    if ts != [] {
      var rest := ts[1..];
      FirstFetchableFirst(rest);
      forall i | 1 <= i < |ts| ensures ts[i] == rest[i - 1] { }
      if ts[0].fetch.FetchFailed? && FirstFetchable(rest).Some? {
        var i :| 0 <= i < |rest| && rest[i].fetch.Fetched? && FirstFetchable(rest).value == JoinedText(rest[i].fetch.entries) &&
          forall j :: 0 <= j < i ==> rest[j].fetch.FetchFailed?;
        assert ts[i + 1] == rest[i];
        forall j | 0 <= j < i + 1 ensures ts[j].fetch.FetchFailed? {
          if j > 0 { assert ts[j] == rest[j - 1]; }
        }
      }
    }
  }

  /**
   * A direct fetch that succeeds ends the lookup with its joined text; the
   * listing and the preferred languages are not consulted.
   */
  lemma {:induction false} ResolveDirect(languages: seq<string>, direct: Fetch, listing: Listing)
    requires direct.Fetched?
    ensures Resolve(languages, direct, listing) == Returned(Some(JoinedText(direct.entries)))
  {
  }

  /**
   * `None` comes back exactly when the direct fetch fails with another error
   * than `NoTranscriptFound`, or the listing fails, or no preferred language
   * ends the lookup and every listed transcript fails to fetch.
   */
  lemma {:induction false} ResolveNone(languages: seq<string>, direct: Fetch, listing: Listing)
    ensures Resolve(languages, direct, listing) == Returned(None) <==>
      (direct.FetchFailed? && direct.error != NoTranscriptFound) ||
      (direct == FetchFailed(NoTranscriptFound) && listing.ListFailed?) ||
      (direct == FetchFailed(NoTranscriptFound) && listing.Listed? &&
        Preferred(languages, listing.list).None? &&
        forall i :: 0 <= i < |listing.list.transcripts| ==> listing.list.transcripts[i].fetch.FetchFailed?)
  {
    if direct == FetchFailed(NoTranscriptFound) && listing.Listed? {
      FirstFetchableFirst(listing.list.transcripts);
      PreferredNeverNone(languages, listing.list);
    }
  }

  /** An attempt that ends the preferred tier returns a text or raises; it never returns `None`. */
  lemma {:induction false} PreferredNeverNone(languages: seq<string>, tl: TranscriptList)
    ensures Preferred(languages, tl) != Some(Returned(None))
  {
    if languages != [] {
      PreferredNeverNone(languages[1..], tl);
    }
  }

  /**
   * An error escapes only from the preferred tier: the direct fetch found
   * nothing, the listing succeeded, and a transcript found for a preferred
   * language failed to fetch with that error, which is not `NoTranscriptFound`.
   */
  lemma {:induction false} ResolveRaised(languages: seq<string>, direct: Fetch, listing: Listing)
    requires Resolve(languages, direct, listing).Raised?
    ensures var e := Resolve(languages, direct, listing).error;
      e != NoTranscriptFound && direct == FetchFailed(NoTranscriptFound) && listing.Listed? &&
      exists i :: 0 <= i < |languages| &&
        ((languages[i] in listing.list.found && listing.list.found[languages[i]].fetch == FetchFailed(e)) ||
         (languages[i] in listing.list.foundGenerated && listing.list.foundGenerated[languages[i]].fetch == FetchFailed(e)))
  {
    PreferredRaised(languages, listing.list);
  }

  /** A raise from the preferred tier comes from a found transcript of some preferred language. */
  lemma {:induction false} PreferredRaised(languages: seq<string>, tl: TranscriptList)
    requires Preferred(languages, tl).Some? && Preferred(languages, tl).value.Raised?
    ensures var e := Preferred(languages, tl).value.error;
      e != NoTranscriptFound &&
      exists i :: 0 <= i < |languages| &&
        ((languages[i] in tl.found && tl.found[languages[i]].fetch == FetchFailed(e)) ||
         (languages[i] in tl.foundGenerated && tl.foundGenerated[languages[i]].fetch == FetchFailed(e)))
  {
    var r := LanguageAttempt(languages[0], tl);
    if r.None? {
      var rest := languages[1..];
      PreferredRaised(rest, tl);
      var e := Preferred(languages, tl).value.error;
      var i :| 0 <= i < |rest| &&
        ((rest[i] in tl.found && tl.found[rest[i]].fetch == FetchFailed(e)) ||
         (rest[i] in tl.foundGenerated && tl.foundGenerated[rest[i]].fetch == FetchFailed(e)));
      assert languages[i + 1] == rest[i];
    }
  }

  /** Every text `get_transcript` returns is trimmed. */
  lemma {:induction false} ResolveTextStripped(languages: seq<string>, direct: Fetch, listing: Listing)
    requires Resolve(languages, direct, listing).Returned? && Resolve(languages, direct, listing).text.Some?
    ensures Stripped(Resolve(languages, direct, listing).text.value)
  {
    var r := Resolve(languages, direct, listing);
    if direct.Fetched? {
      JoinedTextFacts(direct.entries);
    } else if listing.Listed? && Preferred(languages, listing.list).Some? {
      PreferredText(languages, listing.list);
    } else if listing.Listed? {
      FirstFetchableFirst(listing.list.transcripts);
      var ts := listing.list.transcripts;
      var i :| 0 <= i < |ts| && ts[i].fetch.Fetched? && r.text.value == JoinedText(ts[i].fetch.entries) &&
        forall j :: 0 <= j < i ==> ts[j].fetch.FetchFailed?;
      JoinedTextFacts(ts[i].fetch.entries);
    }
  }

  /** A text from the preferred tier is the joined text of some fetched transcript, hence trimmed. */
  lemma {:induction false} PreferredText(languages: seq<string>, tl: TranscriptList)
    requires Preferred(languages, tl).Some? && Preferred(languages, tl).value.Returned?
    requires Preferred(languages, tl).value.text.Some?
    ensures Stripped(Preferred(languages, tl).value.text.value)
  {
    var language := languages[0];
    if LanguageAttempt(language, tl).Some? {
      var first := if language in tl.found then TryFetch(tl.found[language]) else None;
      if first.Some? {
        JoinedTextFacts(tl.found[language].fetch.entries);
      } else {
        JoinedTextFacts(tl.foundGenerated[language].fetch.entries);
      }
    } else {
      PreferredText(languages[1..], tl);
    }
  }
}
